=== FILE: README.md ===
# evented-ssh transport core in Dafny

A model of the transport core of evented-ssh, a Ruby SSH client running on
libuv. It covers:

- **The packet stream.** Building outgoing packets (`enqueue_packet`).
  Decoding incoming ones with a decoder that resumes across reads
  (`next_packet`). Finding the server's identification line
  (`check_packet`). Dispatching received packets by message type
  (`process_buffer`). The rekey gate that holds packets while a key exchange
  is pending (`queue_packet`). Handing ready packets to waiting consumers
  (`process_waiting`, `get_packet`). Teardown (`on_close`). The rekey
  trigger (`if_needs_rekey?`).
- **`Transport::Session`.** The default port, the known-hosts name of the
  peer (`host_as_string`), the choice of host-key verifier, the
  SERVICE_REQUEST message, hints, `rekey!` and `rekey_as_needed`.
- **`ESSH.start` up to opening the transport.** The check of option names,
  `assign_defaults`, the report of `nil` options, the merge with the
  configuration files, and the rewriting of `:user`, `:host_name`,
  `:non_interactive` and `:verbose`.

Files, one module each:

| file | module | what |
|---|---|---|
| results.dfy | `Results` | `Option` (Ruby's `nil`) and `Result` (a raised exception) |
| arith.dfy | `Arith` | Euclidean-division facts the padding proofs use |
| bytes.dfy | `Bytes` | octets, and the big-endian `uint32` (`pack("N")`, `read_long`) that wraps at 2^32 |
| protocol.dfy | `Protocol` | message numbers (section 12 of RFC 4253) and the transport's exceptions |
| values.dfy | `Values` | Ruby option values and Ruby truthiness |
| framing.dfy | `Framing` | the per-direction algorithm state and `enqueue_packet` |
| deframing.dfy | `Deframing` | `next_packet` and the encode/decode round trip |
| banner.dfy | `Banner` | the identification search and its header/version split |
| stream.dfy | `PacketStream` | queues, dispatch, waiters, close, the receive loop |
| session.dfy | `TransportSession` | the `Transport::Session` helpers |
| essh.dfy | `Essh` | `ESSH.start` option handling |

How the model stands in for the parts it does not run:

- **Cipher, HMAC and compressor.** These are opaque functions held in a
  `Direction` record. The round-trip lemmas state, as the `Matching`
  predicate, what a matching pair of endpoints must satisfy.
- **Cipher state.** The cipher is one fixed function per direction. The
  running state of `update_cipher` (CBC chaining, the CTR counter) is not
  carried across the two calls in `next_packet`, nor from packet to packet.
  Instead, `Matching` asks that deciphering piece by piece give the same
  result as deciphering the whole.
- **Random padding.** It is an arbitrary function from index to byte.
- **`Algorithms`.** It is reduced to a `Negotiator`. This records whether
  an exchange is pending, how many were started, and the KEXINIT packets
  forwarded to it. It also holds the `allowed_packet?` predicate. As in
  net-ssh, `start` and a KEXINIT received while idle begin an exchange,
  and a KEXINIT received during one joins it.
- **Futures.** Waiters are numbers. What a waiter is resolved or rejected
  with is logged in the stream's `delivered` and `rejected` sequences.
- **Raised exceptions.** These are `Err` results. An exception raised
  through `reject_and_raise` during receive closes the stream (`Receive`).

## Model

| member | source | states |
|---|---|---|
| Bytes.U32RoundTrip | lib/evented-ssh/transport/packet_stream.rb:94 | Reading back a packed `uint32` gives the value modulo 2^32, so lengths wrap as `pack("N")` does |
| Bytes.ReadU32Inverse | lib/evented-ssh/transport/packet_stream.rb:258 | Every four bytes are the encoding of what `read_long` reads from them |
| Bytes.U32Injective | lib/evented-ssh/transport/packet_stream.rb:94 | Two values below 2^32 with the same encoding are equal |
| Framing.AlignedPadding | lib/evented-ssh/transport/packet_stream.rb:78-82 | The first padding step ends the packet on a block boundary, is between 1 and block+3 bytes, and is at least 4 bytes for a block size of at least 3 |
| Framing.AlignedPaddingIsLeast | lib/evented-ssh/transport/packet_stream.rb:78-82 | That padding is the least one of at least four bytes that aligns the packet |
| Framing.PaddingLength | lib/evented-ssh/transport/packet_stream.rb:78-90 | After the 16-byte adjustment the packet is still block-aligned. The padding is at most 2·block+3, and at least 4 for blocks of 3 or more. Blocks of 6 or more give a packet of at least 16 bytes with its length field. Multiples of 8 give at least 16 without it |
| Framing.PaddingLengthIsLeast | lib/evented-ssh/transport/packet_stream.rb:78-90 | For blocks of 3 or more, no padding of at least 4 bytes that aligns the packet and makes `packet_length` at least 16 is shorter than the padding chosen |
| Framing.MinimumPacket | lib/evented-ssh/transport/packet_stream.rb:87-90 | Adding one block to a short aligned packet reaches the 16-byte minimum |
| Framing.SmallPayloadPadding | lib/evented-ssh/transport/packet_stream.rb:78-90 | A 2-byte payload under an 8-byte block gets 9 bytes of padding, then 17, so `packet_length` is 20 |
| Framing.Frame | lib/evented-ssh/transport/packet_stream.rb:92-94 | The clear packet is block-aligned. It starts with its own length minus 4 as a `uint32`, then the padding length, then the payload at offset 5, then exactly that much padding |
| Framing.EnqueuePacket | lib/evented-ssh/transport/packet_stream.rb:73-106 | The message is the cipher applied to the framed, compressed payload, followed by the MAC of the sequence number and that clear frame. The client state moves on by one packet |
| Framing.EnqueueAll | lib/evented-ssh/transport/packet_stream.rb:73-106 | The whole output begins with the message of the first call. With no payloads nothing is written. The client's sequence number moves on once per packet, modulo 2^32, and nothing else about the client changes |
| Deframing.FirstBlock | lib/evented-ssh/transport/packet_stream.rb:252 | The first read is 4 bytes when the block is smaller than 4 and one block otherwise |
| Deframing.NextPacket | lib/evented-ssh/transport/packet_stream.rb:250-297 | With less than a first block and no saved length, nothing changes. A padding error is raised exactly when the known length is misaligned. With a saved length and too little input for the rest and the MAC, nothing changes. Waiting consumes at most the first block. A packet leaves a suffix of the input and advances the server state by one |
| Deframing.Remainder | lib/evented-ssh/transport/packet_stream.rb:261-297 | Misalignment is a padding error. Waiting happens exactly when an aligned packet lacks bytes for the rest and the MAC, and saves the partial packet. Success consumes a prefix, clears the partial state and increments the sequence number |
| Deframing.ReadPayload | lib/evented-ssh/transport/packet_stream.rb:279-281 | A negative count (padding length too large) reads nothing. Otherwise the read starts at offset 5, takes at most the count, falls short only at the end of the content, and takes exactly the count when the whole packet is present |
| Deframing.WaitingIsStable | lib/evented-ssh/transport/packet_stream.rb:250-266 | After a call that produced nothing, another call without new input produces nothing and changes nothing |
| Deframing.MoreInputResumes | lib/evented-ssh/transport/packet_stream.rb:250-266 | Resuming a waiting decoder on more input is the same as decoding all of the input at once from the start. The saved length stands in for the consumed first block |
| Deframing.DecodeFrame | lib/evented-ssh/transport/packet_stream.rb:250-297 | A well-formed enciphered packet followed by any bytes decodes to a corrupted-MAC error when the MAC differs, and otherwise to the decompressed payload read, with exactly the packet and MAC consumed |
| Deframing.FrameDecodes | lib/evented-ssh/transport/packet_stream.rb:279-281 | A frame built by the encoder has a correct length field, is block-aligned, and its payload field reads back as the payload |
| Deframing.RoundTrip | lib/evented-ssh/transport/packet_stream.rb:73-106 | With matching endpoints, decoding an encoded packet followed by anything gives back the original payload. It consumes exactly that packet and leaves both sequence numbers equal |
| Deframing.TamperedMacIsRejected | lib/evented-ssh/transport/packet_stream.rb:276-286 | In the message the encoder sends, replacing its MAC by any other bytes makes decoding fail with a corrupted-MAC error |
| Deframing.OversizedPaddingDeliversEmpty | lib/evented-ssh/transport/packet_stream.rb:279-296 | One packet, with padding length 200 and packet length 12, is not an error: it is delivered with an empty payload and the sequence number advances |
| Banner.LineEnd | lib/evented-ssh/transport/packet_stream.rb:192 | Finds the first newline at or after a position, or says there is none |
| Banner.Search | lib/evented-ssh/transport/packet_stream.rb:192 | `read_to(/SSH-.+\n/)`: the leftmost match, where no earlier start matches, or no match at all |
| Banner.Contains | lib/evented-ssh/transport/packet_stream.rb:195 | True exactly when the pattern occurs at some position at or after the start |
| Banner.Compatible | lib/evented-ssh/transport/packet_stream.rb:195 | True exactly when "SSH-1.99-" or "SSH-2.0-" occurs in the identification |
| Banner.SplitLines | lib/evented-ssh/transport/packet_stream.rb:200 | `split("\n")` yields at least one field, none containing a newline |
| Banner.JoinSplit | lib/evented-ssh/transport/packet_stream.rb:200-201 | Joining the split fields with newlines restores the text |
| Banner.SplitJoin | lib/evented-ssh/transport/packet_stream.rb:200-201 | Splitting newline-free fields after joining them gives the fields back |
| Banner.Chomp | lib/evented-ssh/transport/packet_stream.rb:201-202 | `chomp` removes at most one trailing carriage return and nothing else, and changes the line exactly when it ends in one |
| Banner.SplitVersion | lib/evented-ssh/transport/packet_stream.rb:200-202 | The version is the chomped last line and holds no newline. The header is the earlier lines, chomped and joined |
| Banner.SplitVersionRestores | lib/evented-ssh/transport/packet_stream.rb:200-202 | With no carriage returns to strip, the header, a newline and the version rebuild the identification |
| Banner.VersionLineNotEmpty | lib/evented-ssh/transport/packet_stream.rb:200 | The version line keeps everything after the matched "SSH-", so Ruby's dropping of trailing empty fields never applies |
| Banner.AcceptsVersion2 | lib/evented-ssh/transport/packet_stream.rb:192-202 | "SSH-2.0-test\r\n" is found in full and is compatible. It splits into an empty header and the version without its CR |
| Banner.RefusesVersion1 | lib/evented-ssh/transport/packet_stream.rb:195 | "SSH-1.0-test\r\n" is not compatible |
| PacketStream.Classify | lib/evented-ssh/transport/packet_stream.rb:225-243 | DISCONNECT and KEXINIT are recognised exactly by their message number. A packet goes to the queue exactly when its number is none of the five control messages |
| PacketStream.Begin | lib/evented-ssh/transport/packet_stream.rb:205 | `start` begins an exchange and counts it unless one is pending, when nothing changes. Afterwards one is pending |
| PacketStream.AcceptKexInit | lib/evented-ssh/transport/packet_stream.rb:239 | A received KEXINIT is logged in order and leaves an exchange pending, counting a new one only when none was |
| PacketStream.ServeWaiters | lib/evented-ssh/transport/packet_stream.rb:145-152 | The i-th waiter gets the i-th ready packet, for as many pairs as the shorter queue allows. The rest of each queue is left in order, and one queue ends empty |
| PacketStream.ServeConserves | lib/evented-ssh/transport/packet_stream.rb:145-152 | Packets handed out, followed by the packets still ready, are the packets that were ready. The same holds for waiters |
| PacketStream.ProcessWaiting | lib/evented-ssh/transport/packet_stream.rb:145-152 | Deliveries are appended to the log. Ready packets and waiters are conserved in order. Afterwards one of the two queues is empty. Nothing else changes |
| PacketStream.QueuePacket | lib/evented-ssh/transport/packet_stream.rb:125-143 | The packet joins the ready queue exactly when no exchange is pending or it is allowed. It is held exactly otherwise. Holding registers the release |
| PacketStream.SettleRekey | lib/evented-ssh/transport/packet_stream.rb:133-140 | When the exchange settles, held packets follow the ready ones in arrival order. Then the hold is emptied, the release cleared, and waiters served with nothing lost |
| PacketStream.DispatchRaisesOnDisconnect | lib/evented-ssh/transport/packet_stream.rb:224-227 | Dispatching a batch raises exactly when it contains a DISCONNECT, and the error is `Disconnect` |
| PacketStream.DispatchGates | lib/evented-ssh/transport/packet_stream.rb:224-244 | Without DISCONNECT, dispatching packet by packet equals the batch reference: data packets before the first KEXINIT meet the gate as it stood, those after it meet a pending exchange, and the negotiator takes every KEXINIT in order, beginning an exchange if none was pending |
| PacketStream.DispatchConsistent | lib/evented-ssh/transport/packet_stream.rb:125-143 | Dispatch preserves the gate invariant: packets are held only with a release registered, and a release only while an exchange is pending |
| PacketStream.ExtractAll | lib/evented-ssh/transport/packet_stream.rb:217-221 | Each turn is one `next_packet` call. Its error is raised and ends extraction. If it yields nothing, the batch is empty and the reader is the one that call left. If it yields a payload, that payload is the first packet of the batch. Extraction stops only at a reader from which no packet can be taken without new input |
| PacketStream.ExtractsEverySent | lib/evented-ssh/transport/packet_stream.rb:213-221 | With matching endpoints, the messages of consecutive `enqueue_packet` calls, followed by less than a first block, are extracted as exactly those payloads in order. The short tail is left as unread input, and the server sequence number has moved on once per packet |
| PacketStream.ChainExtracts | lib/evented-ssh/transport/packet_stream.rb:217-221 | A reader whose successive `next_packet` calls yield the given payloads and then nothing is extracted as exactly those packets, ending at the last reader |
| PacketStream.ProcessBuffer | lib/evented-ssh/transport/packet_stream.rb:213-248 | An extraction error is raised with the stream untouched. Otherwise the extracted batch is dispatched. The gate invariant, header state and rejections are kept. The negotiator keeps its predicate, and a pending exchange stays pending and is not counted again |
| PacketStream.DispatchBatch | lib/evented-ssh/transport/packet_stream.rb:224-247 | Raises exactly on DISCONNECT. Otherwise it ends with no ready packet or no waiter. The invariant, the reader and earlier deliveries are kept, and a pending exchange stays pending |
| PacketStream.BatchGates | lib/evented-ssh/transport/packet_stream.rb:224-247 | Without DISCONNECT, the negotiator ends as the batch reference says and the data packets pass the gate as it says. Deliveries plus remaining ready packets equal the gated ready queue, and waiters are conserved |
| PacketStream.CheckPacket | lib/evented-ssh/transport/packet_stream.rb:185-211 | Receiving bytes keeps the gate invariant and never settles an exchange. Once the identification has been seen, the bytes are appended and the whole input goes through `process_buffer`. When it accepts the identification, the initial exchange is pending afterwards |
| PacketStream.ReadHeader | lib/evented-ssh/transport/packet_stream.rb:191-210 | Without a match nothing changes. An incompatible identification raises with that text. The header is accepted exactly when a compatible one is found. Then the version is recorded and the negotiator started, with the initial exchange pending and counted once, and the rest is handled as `AcceptHeader` says |
| PacketStream.AcceptHeader | lib/evented-ssh/transport/packet_stream.rb:196-206 | Accepting records the split identification and starts the negotiator, which leaves an exchange pending. The bytes after the newline go through `process_buffer` when there are any, and otherwise nothing more happens |
| PacketStream.HeaderRecorded | lib/evented-ssh/transport/packet_stream.rb:196-205 | The input keeps exactly what follows the identification's newline, the split identification is recorded, the negotiator is started, and nothing else changes |
| PacketStream.HeaderAcrossReads | lib/evented-ssh/transport/packet_stream.rb:185-193 | Bytes that do not complete an identification are kept. Receiving `a` then `b` equals receiving `a + b` |
| PacketStream.GetPacket | lib/evented-ssh/transport/packet_stream.rb:108-123 | Both modes take the head of the ready queue. Nonblock gives nil on an empty queue. Block on an empty queue appends a waiter the stream has not seen before. An unknown mode yields nil and changes nothing |
| PacketStream.GetPacketDefault | lib/evented-ssh/transport/packet_stream.rb:108-116 | With the mode left out it blocks: the head of the ready queue when there is one, and otherwise a suspension on a waiter the stream has not seen before |
| PacketStream.SuspendedWaiterGetsFirstPacket | lib/evented-ssh/transport/packet_stream.rb:108-152 | A blocking read on an empty stream suspends, and the next batch resolves that waiter exactly once with the first packet it makes ready; if it makes none ready the waiter keeps waiting |
| PacketStream.OneWaiter | lib/evented-ssh/transport/packet_stream.rb:145-152 | With one waiter, a batch delivers to it the first packet it makes ready and leaves the rest ready |
| PacketStream.RejectAll | lib/evented-ssh/transport/packet_stream.rb:306-308 | Each waiter in order is rejected with the same reason |
| PacketStream.OnClose | lib/evented-ssh/transport/packet_stream.rb:299-314 | Every waiter is rejected in order with the close reason and the queue is emptied. Nothing is delivered. The pending exchange is rejected and the hold released: held packets follow the ready ones, and the release is cleared. Nothing else about the stream changes |
| PacketStream.Receive | lib/evented-ssh/transport/packet_stream.rb:316-320 | An exception raised through `reject_and_raise` closes the stream with that exception as the reason. A malformed read raises without closing. The gate invariant holds afterwards |
| PacketStream.IfNeedsRekey | lib/evented-ssh/transport/packet_stream.rb:157-163 | Nothing happens unless a direction needs a rekey. Otherwise the block runs, and afterwards neither direction needs one |
| TransportSession.PortOption | lib/evented-ssh/transport/session.rb:69 | The port is the given one when truthy and 22 otherwise |
| TransportSession.DecimalRoundTrip | lib/evented-ssh/transport/session.rb:109 | The decimal text of a port reads back as the port |
| TransportSession.Entry | lib/evented-ssh/transport/session.rb:108-109 | On port 22 the entry is the bare name. Otherwise it is bracketed and longer |
| TransportSession.HostAsString | lib/evented-ssh/transport/session.rb:106-121 | The host's entry, then a comma and the peer address's entry exactly when the address differs from the host |
| TransportSession.EntryParses | lib/evented-ssh/transport/session.rb:108-109 | An entry reads back as its name and port and contains no comma |
| TransportSession.HostAsStringParses | lib/evented-ssh/transport/session.rb:106-121 | Reading the result back gives the host with the port. The peer address with the same port follows exactly when it differs from the host |
| TransportSession.SelectHostKeyVerifier | lib/evented-ssh/transport/session.rb:232-249 | true or nil gives Lenient, false gives Null, `:very` gives Strict, `:secure` gives Secure. An object answering `verify` is used as is. Anything else is an ArgumentError naming the value |
| TransportSession.SelectsEveryVerifier | lib/evented-ssh/transport/session.rb:232-249 | Every verifier is reachable from some `:paranoid` setting |
| TransportSession.ServiceRequest | lib/evented-ssh/transport/session.rb:145-147 | The message number, then 4 length bytes, then the name |
| TransportSession.ServiceRequestRoundTrip | lib/evented-ssh/transport/session.rb:145-147 | A SERVICE_REQUEST message reads back as the service name |
| TransportSession.Hint | lib/evented-ssh/transport/session.rb:219-221 | Sets exactly one hint to the value. Other hints and the rest of the stream are unchanged |
| TransportSession.HintDefault | lib/evented-ssh/transport/session.rb:219-221 | With the value left out, the hint is set to true. Other hints and the rest of the stream are unchanged |
| TransportSession.HintsCommute | lib/evented-ssh/transport/session.rb:219-221 | Two different hints can be set in either order |
| TransportSession.Rekey | lib/evented-ssh/transport/session.rb:152-157 | Does nothing when an exchange is pending. Otherwise it starts exactly one. Afterwards one is pending |
| TransportSession.RekeyAsNeeded | lib/evented-ssh/transport/session.rb:162-165 | Does nothing while an exchange is pending or when no direction needs a rekey. Otherwise it starts one exchange and clears both directions' need |
| TransportSession.RekeyAsNeededIdempotent | lib/evented-ssh/transport/session.rb:162-165 | A second call right after the first changes nothing |
| TransportSession.RekeyConsistent | lib/evented-ssh/transport/session.rb:152-165 | Starting a rekey preserves the gate invariant |
| Essh.InvalidOptions | lib/evented-ssh.rb:25-26 | No invalid names exactly when every key is in `VALID_OPTIONS` |
| Essh.DropNil | lib/evented-ssh.rb:96 | The key is removed exactly when present with `nil`. Every other entry is kept unchanged |
| Essh.AssignDefaults | lib/evented-ssh.rb:87-98 | A missing or false logger becomes a FATAL logger, and a truthy one is kept. The same rule installs the default prompt. Password and passphrase are removed exactly when given as `nil`. All other keys are unchanged |
| Essh.AssignDefaultsIdempotent | lib/evented-ssh.rb:87-98 | Applying the defaults twice is applying them once |
| Essh.SanitizeOptions | lib/evented-ssh.rb:100-106 | The reported keys are exactly those whose value is `nil` or `[nil]` |
| Essh.DefaultsSilenceWarnings | lib/evented-ssh.rb:30-31 | After the defaults, the four defaulted keys are reported only when given as `[nil]`. Every other key is reported exactly when given as `nil` or `[nil]` |
| Essh.Verbosity | lib/evented-ssh.rb:41-51 | An Integer passes through. The five level symbols map to levels 0..4. Anything else is an ArgumentError naming the value |
| Essh.LevelNamesMap | lib/evented-ssh.rb:44-48 | Each level's symbol maps to that level |
| Essh.ConfigurationFor | lib/evented-ssh.rb:77-85 | false or nil gives no configuration. Otherwise the files' configuration for the host is used |
| Essh.Explicit | lib/evented-ssh.rb:30-33 | A truthy `user` argument overrides `options[:user]`; otherwise the options are the defaulted ones. No other key differs from the defaulted options |
| Essh.Rewrite | lib/evented-ssh.rb:37-51 | `:non_interactive` forces the prompt count to 0. A truthy `:verbose` sets the logger's level, or fails on a bad value or a non-logger. No other option changes |
| Essh.Start | lib/evented-ssh.rb:24-53 | Fails on invalid names exactly when some key is invalid. Otherwise it succeeds exactly when rewriting succeeds. The result carries the rewritten merge, the effective host, and the keys reported as `nil` |
| Essh.Merged | lib/evented-ssh.rb:33-34 | The merged options always hold a truthy logger |
| Essh.ExplicitOverridesConfig | lib/evented-ssh.rb:34 | Explicit options win the merge. The files supply only keys not given, and only when configuration is enabled |
| Essh.UserArgumentWins | lib/evented-ssh.rb:33-34 | A truthy `user` argument is the user the transport sees, whatever the options or files say |
| Essh.HostNameWins | lib/evented-ssh.rb:35 | The host is the merged `:host_name` when present, an explicit one taking precedence, and the host argument otherwise |
| Essh.ConfigOff | lib/evented-ssh.rb:34 | `config: false` leaves only the explicit options |

## Left out

- Libuv TCP I/O: `connect`, `direct_write`, `start_read`, `peer_ip`, the DNS lookup and the blocking waits. The peer address is a parameter of `HostAsString`.
- The concrete ciphers, HMACs, compressors and `Transport::State`. They are opaque functions. The byte and packet counters behind `needs_rekey?` are a flag. `final_cipher` is taken to add nothing. The running cipher state between `update_cipher` calls is not carried.
- `Algorithms`: `allowed_packet?` is an opaque predicate. `start`, `accept_kexinit`, `rekey!` and `pending?` act only on the negotiator's flags, count and KEXINIT log. The key exchange itself, and the KEXINIT the client sends, are not modelled.
- Logging of IGNORE, DEBUG and UNIMPLEMENTED packets: these packets are consumed and nothing else happens.
- `client.cleanup`/`server.cleanup` in `on_close`, the `rescue` around it and the reactor tick it defers to. The close is modelled as one step.
- `Session#push` and `poll_message`. `push` calls a `process_waiting` that `Session` does not define, and `poll_message` blocks.
- Known-hosts lookup (`host_keys`), authentication, the connection-layer wrappers, and the verifiers' internals.
- The memoisation of `host_as_string` and `peer`. `HostAsString` is a function of host, port and peer address.
- TransportSession.HostAsStringParses: only for names without '[', ',' or ']'. Port values other than integers are not modelled.
- Deframing.RoundTrip: only for block sizes from 4 to 126. Below 4 the decoder reads past the first block. Above 126 the padding would not fit in one byte. The block ciphers of SSH use 8- or 16-byte blocks.
- Deframing.TamperedMacIsRejected: the same block-size range as `RoundTrip`.
- Framing.PaddingLength: the at-least-4 padding is stated for block sizes of 3 or more. Sizes 1 and 2 can give less.
- Framing.PaddingLength: the 16-byte minimum is stated for block sizes of 6 or more, and without the length field only for multiples of 8.
- PacketStream.ProcessBuffer: when extraction raises, the stream is returned as it was before extraction. Packets already taken from the input are not kept. When the error is one that rejects, the stream is closed right after; for a malformed read, see PacketStream.Receive.
- PacketStream.Receive: after a malformed read (`read_long` or `read_byte` giving `nil`) the stream is kept as it was before extraction. Ruby keeps the bytes already consumed and the half-read packet, and loses the packets extracted in that call.
- Essh.Rewrite: Ruby calls `level=` on whatever `:logger` holds, so any object with that method is accepted. The model only knows `Logger` values: any other value is taken to lack `level=` and fails with `NotALogger`, where Ruby raises NoMethodError.
- Essh.ConfigurationFor: which files are read for `true` versus an explicit list, and parsing them, is I/O. Their result is the `files` parameter.
- Essh.Start: the default prompt object, `Etc.getlogin` and everything after `Transport::Session.new` are outside the model.

=== FILE: arith.dfy ===
/** Facts about Euclidean division by a positive block size that the
    padding and framing proofs rest on. */
module Arith {

  lemma MulAtLeast(m: nat, d: int)
    requires d >= 1
    ensures m * d >= m
  {
  }

  /** Quotient and remainder are the unique ones. */
  lemma ModUnique(x: int, m: nat, q: int, r: int)
    requires m > 0 && 0 <= r < m && x == m * q + r
    ensures x / m == q && x % m == r
  {
    var q', r' := x / m, x % m;
    assert x == m * q' + r';
    if q > q' {
      MulAtLeast(m, q - q');
    } else if q < q' {
      MulAtLeast(m, q' - q);
    }
  }

  /** Adding one more `m` keeps the remainder. */
  lemma ModAddBlock(x: int, m: nat)
    requires m > 0
    ensures (x + m) % m == x % m
  {
    ModUnique(x + m, m, x / m + 1, x % m);
  }

  /** Rounding `x` up to the next multiple of `m`, strictly above it. */
  lemma ModRoundUp(x: int, m: nat)
    requires m > 0
    ensures (x + (m - x % m)) % m == 0
  {
    ModUnique(x + (m - x % m), m, x / m + 1, 0);
  }

  /** A multiple of `m` above `-m` is not negative. */
  lemma MultipleAboveMinus(x: int, m: nat)
    requires m > 0 && x % m == 0 && x + m > 0
    ensures x >= 0
  {
    if x < 0 {
      var q := x / m;
      assert x == m * q;
      if q <= -1 {
        MulAtLeast(m, -q);
      }
    }
  }

  /** Two values with the same remainder differ by a multiple of `m`. */
  lemma ModDifference(x: int, y: int, m: nat)
    requires m > 0 && x % m == y % m && y <= x
    ensures (x - y) % m == 0
  {
    var i, j := x / m, y / m;
    assert x == m * i + x % m && y == m * j + y % m;
    assert x - y == m * (i - j);
    ModUnique(x - y, m, i - j, 0);
  }

  /** A multiple of `m` above `y * m` is at least `(y + 1) * m`. */
  lemma MultipleAbove(x: int, m: nat, y: int)
    requires m > 0 && x % m == 0 && x > y * m
    ensures x >= (y + 1) * m
  {
    var q := x / m;
    assert x == m * q;
    if q < y + 1 {
      MulAtLeast(m, y + 1 - q);
    }
  }
}

=== FILE: banner.dfy ===
/** The version exchange of section 4.2 of RFC 4253 as `check_packet` reads
    it: the input is searched for the first match of `/SSH-.+\n/`; everything
    up to the end of that line is the server's identification, which must
    declare protocol 1.99 or 2.0 (section 5.1 of RFC 4253); the lines before
    the version line are kept as the header. */
module Banner {

  import opened Bytes
  import opened Results

  const LF: byte := 10
  const CR: byte := 13

  /** "SSH-" */
  const SSH_DASH: seq<byte> := [83, 83, 72, 45]
  /** "SSH-1.99-" */
  const SSH_1_99: seq<byte> := [83, 83, 72, 45, 49, 46, 57, 57, 45]
  /** "SSH-2.0-" */
  const SSH_2_0: seq<byte> := [83, 83, 72, 45, 50, 46, 48, 45]

  /** `/SSH-.+\n/` matches `b` from index `start`, its newline at index `nl`:
      "SSH-", at least one byte, none of them a newline, then the newline. */
  ghost predicate MatchAt(b: seq<byte>, start: nat, nl: nat) {
    && start + 4 < nl < |b|
    && b[start..start + 4] == SSH_DASH
    && b[nl] == LF
    && forall k :: start + 4 <= k < nl ==> b[k] != LF
  }

  /** The first newline at or after `from`. */
  function LineEnd(b: seq<byte>, from: nat): (r: Option<nat>)
    ensures r.Some? ==> from <= r.value < |b| && b[r.value] == LF
    ensures r.Some? ==> forall k :: from <= k < r.value ==> b[k] != LF
    ensures r.None? ==> forall k :: from <= k < |b| ==> b[k] != LF
    decreases |b| - from
  {
    if from >= |b| then None
    else if b[from] == LF then Some(from)
    else LineEnd(b, from + 1)
  }

  /** The leftmost match of `/SSH-.+\n/` starting at or after `from`, as
      (start, newline). Since `.` does not match a newline, the newline of a
      match is the first one after its "SSH-". `Search(b, 0)` is
      `@input.read_to(/SSH-.+\n/)`, which reads the input up to and
      including that newline, or gives `nil` when there is no match yet. */
  function Search(b: seq<byte>, from: nat): (r: Option<(nat, nat)>)
    ensures r.Some? ==> from <= r.value.0 && MatchAt(b, r.value.0, r.value.1)
    ensures r.Some? ==> forall start, nl :: from <= start < r.value.0 ==> !MatchAt(b, start, nl)
    ensures r.None? ==> forall start, nl :: from <= start ==> !MatchAt(b, start, nl)
    decreases |b| - from
  {
    if from + 4 >= |b| then None
    else if b[from..from + 4] != SSH_DASH then Search(b, from + 1)
    else
      match LineEnd(b, from + 4)
      case Some(nl) =>
        if nl > from + 4 then Some((from, nl)) else Search(b, from + 1)
      case None => Search(b, from + 1)
  }

  /** `pat` occurs in `s` at index `k`. */
  ghost predicate OccursAt(s: seq<byte>, pat: seq<byte>, k: nat) {
    k + |pat| <= |s| && s[k..k + |pat|] == pat
  }

  /** Substring search from index `from`. */
  function Contains(s: seq<byte>, pat: seq<byte>, from: nat): (r: bool)
    ensures r <==> exists k :: from <= k && OccursAt(s, pat, k)
    decreases |s| - from
  {
    if from + |pat| > |s| then
      assert forall k :: from <= k ==> !OccursAt(s, pat, k);
      false
    else if s[from..from + |pat|] == pat then
      assert OccursAt(s, pat, from);
      true
    else
      Contains(s, pat, from + 1)
  }

  /** `version.match(/SSH-(1\.99|2\.0)-/)`: the identification, header lines
      included, mentions protocol 1.99 or 2.0 anywhere. */
  function Compatible(version: seq<byte>): (ok: bool)
    ensures ok <==> (exists k :: OccursAt(version, SSH_1_99, k)) || (exists k :: OccursAt(version, SSH_2_0, k))
  {
    Contains(version, SSH_1_99, 0) || Contains(version, SSH_2_0, 0)
  }

  /** `split("\n")`, every field kept. */
  function SplitLines(b: seq<byte>): (parts: seq<seq<byte>>)
    ensures |parts| >= 1
    ensures forall i :: 0 <= i < |parts| ==> LF !in parts[i]
    decreases |b|
  {
    match LineEnd(b, 0)
    case None => [b]
    case Some(nl) =>
      assert LF !in b[..nl];
      [b[..nl]] + SplitLines(b[nl + 1..])
  }

  /** `join("\n")`. */
  function JoinLines(parts: seq<seq<byte>>): seq<byte>
    decreases |parts|
  {
    if |parts| == 0 then []
    else if |parts| == 1 then parts[0]
    else parts[0] + [LF] + JoinLines(parts[1..])
  }

  /** Joining the split lines restores the text. */
  lemma {:induction false} JoinSplit(b: seq<byte>)
    ensures JoinLines(SplitLines(b)) == b
    decreases |b|
  {
    match LineEnd(b, 0)
    case None =>
    case Some(nl) =>
      var rest := b[nl + 1..];
      assert SplitLines(b) == [b[..nl]] + SplitLines(rest);
      JoinSplit(rest);
      assert JoinLines(SplitLines(b)) == b[..nl] + [LF] + JoinLines(SplitLines(rest));
      assert b == b[..nl] + [LF] + rest;
  }

  /** The first newline of `first + [LF] + rest`, when `first` has none,
      closes `first`. */
  lemma FirstLine(first: seq<byte>, rest: seq<byte>)
    requires LF !in first
    ensures var b := first + [LF] + rest;
            LineEnd(b, 0) == Some(|first|) && b[..|first|] == first && b[|first| + 1..] == rest
  {
    var b := first + [LF] + rest;
    assert forall k :: 0 <= k < |first| ==> b[k] == first[k];
    assert b[|first|] == LF;
  }

  /** Splitting joined lines that hold no newline gives the lines back. */
  lemma {:induction false} SplitJoin(parts: seq<seq<byte>>)
    requires |parts| >= 1
    requires forall i :: 0 <= i < |parts| ==> LF !in parts[i]
    ensures SplitLines(JoinLines(parts)) == parts
    decreases |parts|
  {
    if |parts| == 1 {
      assert LineEnd(JoinLines(parts), 0).None?;
    } else {
      var tail := parts[1..];
      var rest := JoinLines(tail);
      var b := parts[0] + [LF] + rest;
      assert JoinLines(parts) == b;
      FirstLine(parts[0], rest);
      assert SplitLines(b) == [parts[0]] + SplitLines(rest);
      assert forall i :: 0 <= i < |tail| ==> LF !in tail[i] by {
        forall i | 0 <= i < |tail| ensures LF !in tail[i] { assert tail[i] == parts[i + 1]; }
      }
      SplitJoin(tail);
      assert parts == [parts[0]] + tail;
    }
  }

  /** `chomp` of a field that holds no newline: one trailing carriage return goes. */
  function Chomp(line: seq<byte>): (r: seq<byte>)
    ensures r == line || (line == r + [CR])
    ensures r != line <==> |line| > 0 && line[|line| - 1] == CR
  {
    if |line| > 0 && line[|line| - 1] == CR then line[..|line| - 1] else line
  }

  function ChompAll(lines: seq<seq<byte>>): (r: seq<seq<byte>>)
    ensures |r| == |lines|
    ensures forall i :: 0 <= i < |r| ==> r[i] == Chomp(lines[i])
  {
    seq(|lines|, i requires 0 <= i < |lines| => Chomp(lines[i]))
  }

  /** `Session::ServerVersion`: the header lines and the version line. */
  datatype ServerVersion = ServerVersion(header: seq<byte>, version: seq<byte>)

  /** Splitting the identification (without its final newline) into the
      header, every earlier line chomped and joined with newlines, and the
      chomped version line. */
  function SplitVersion(body: seq<byte>): (sv: ServerVersion)
    ensures LF !in sv.version
    ensures var parts := SplitLines(body);
            sv.header == JoinLines(ChompAll(parts[..|parts| - 1]))
            && sv.version == Chomp(parts[|parts| - 1])
  {
    var parts := SplitLines(body);
    ServerVersion(JoinLines(ChompAll(parts[..|parts| - 1])), Chomp(parts[|parts| - 1]))
  }

  /** When no line ends in a carriage return nothing is lost: the header,
      a newline and the version line give back the identification. */
  lemma {:induction false} SplitVersionRestores(body: seq<byte>)
    requires forall i :: 0 <= i < |SplitLines(body)| ==> Chomp(SplitLines(body)[i]) == SplitLines(body)[i]
    ensures var sv := SplitVersion(body);
            body == (if LF in body then sv.header + [LF] else []) + sv.version
  {
    var parts := SplitLines(body);
    var front, last := parts[..|parts| - 1], parts[|parts| - 1];
    assert SplitVersion(body) == ServerVersion(JoinLines(front), last) by {
      assert ChompAll(front) == front;
    }
    assert parts == front + [last];
    JoinSplit(body);
    RestoreLines(body, front, last);
  }

  /** `SplitVersionRestores` once the chomping is gone. */
  lemma RestoreLines(body: seq<byte>, front: seq<seq<byte>>, last: seq<byte>)
    requires JoinLines(front + [last]) == body && SplitLines(body) == front + [last]
    ensures body == (if LF in body then JoinLines(front) + [LF] else []) + last
  {
    var parts := front + [last];
    if |front| == 0 {
      assert parts == [last] && body == last;
      assert LF !in body;
    } else {
      JoinAppend(front, last);
      assert LF in body by {
        assert body[|JoinLines(front)|] == LF;
      }
    }
  }

  lemma {:induction false} JoinAppend(front: seq<seq<byte>>, last: seq<byte>)
    requires |front| >= 1
    ensures JoinLines(front + [last]) == JoinLines(front) + [LF] + last
    decreases |front|
  {
    if |front| == 1 {
      assert front + [last] == [front[0], last];
    } else {
      assert (front + [last])[1..] == front[1..] + [last];
      JoinAppend(front[1..], last);
    }
  }

  /** The version line is never empty: it holds the "SSH-" of the match and
      the byte after it, so Ruby's `split`, which drops only trailing empty
      fields, keeps every field `SplitLines` yields. */
  lemma {:induction false} VersionLineNotEmpty(b: seq<byte>, start: nat, nl: nat)
    requires MatchAt(b, start, nl)
    ensures |SplitLines(b[..nl])[|SplitLines(b[..nl])| - 1]| >= nl - start - 4
  {
    LastLineKeepsTail(b[..nl], start + 4);
  }

  lemma {:induction false} LastLineKeepsTail(b: seq<byte>, t: nat)
    requires t <= |b|
    requires forall k :: t <= k < |b| ==> b[k] != LF
    ensures |SplitLines(b)[|SplitLines(b)| - 1]| >= |b| - t
    decreases |b|
  {
    match LineEnd(b, 0)
    case None =>
    case Some(nl) =>
      assert nl < t;
      var rest := b[nl + 1..];
      assert forall k :: t - nl - 1 <= k < |rest| ==> rest[k] == b[k + nl + 1];
      LastLineKeepsTail(rest, t - nl - 1);
      assert SplitLines(b) == [b[..nl]] + SplitLines(rest);
  }

  /** An OpenSSH-style identification ending in CR LF is found in full,
      is compatible, and splits into an empty header and the version line
      without its CR. */
  lemma AcceptsVersion2()
    ensures var b: seq<byte> := [83, 83, 72, 45, 50, 46, 48, 45, 116, 101, 115, 116, 13, 10];
            && Search(b, 0) == Some((0, 13))
            && Compatible(b)
            && SplitVersion(b[..13]) == ServerVersion([], [83, 83, 72, 45, 50, 46, 48, 45, 116, 101, 115, 116])
  {
    var b: seq<byte> := [83, 83, 72, 45, 50, 46, 48, 45, 116, 101, 115, 116, 13, 10];
    assert b[0..4] == SSH_DASH;
    assert LineEnd(b, 4) == Some(13);
    assert OccursAt(b, SSH_2_0, 0);
    assert LineEnd(b[..13], 0) == None;
  }

  /** A protocol 1.0 identification is refused. */
  lemma RefusesVersion1()
    ensures !Compatible([83, 83, 72, 45, 49, 46, 48, 45, 116, 101, 115, 116, 13, 10])
  {
    var b: seq<byte> := [83, 83, 72, 45, 49, 46, 48, 45, 116, 101, 115, 116, 13, 10];
    forall k: nat | k + 9 <= |b| ensures !OccursAt(b, SSH_1_99, k) {
      if k == 0 {
        assert b[k..k + 9][6] != SSH_1_99[6];
      } else if k == 1 {
        assert b[k..k + 9][1] != SSH_1_99[1];
      } else {
        assert k == 2 || k == 3 || k == 4 || k == 5;
        assert b[2] != 83 && b[3] != 83 && b[4] != 83 && b[5] != 83;
        assert b[k..k + 9][0] == b[k] != SSH_1_99[0];
      }
    }
    forall k: nat | k + 8 <= |b| ensures !OccursAt(b, SSH_2_0, k) {
      if k == 0 {
        assert b[k..k + 8][4] != SSH_2_0[4];
      } else if k == 1 {
        assert b[k..k + 8][1] != SSH_2_0[1];
      } else {
        assert k == 2 || k == 3 || k == 4 || k == 5 || k == 6;
        assert b[2] != 83 && b[3] != 83 && b[4] != 83 && b[5] != 83 && b[6] != 83;
        assert b[k..k + 8][0] == b[k] != SSH_2_0[0];
      }
    }
  }
}

=== FILE: bytes.dfy ===
/** Octets and the big-endian `uint32` encoding of section 5 of RFC 4251,
    which the transport writes with Ruby's `pack("N")`. */
module Bytes {

  import Arith

  type byte = b: int | 0 <= b < 256

  const TWO_32: nat := 0x1_0000_0000

  /** `[n].pack("N")`: the low 32 bits of `n`, most significant byte first.
      Values of 2^32 and above wrap, as the packing does. */
  function U32(n: nat): (r: seq<byte>)
    ensures |r| == 4
  {
    var m := n % TWO_32;
    [m / 0x100_0000, m / 0x1_0000 % 0x100, m / 0x100 % 0x100, m % 0x100]
  }

  /** `unpack("N")` of the first four bytes (`Buffer#read_long`). */
  function ReadU32(b: seq<byte>): (n: nat)
    requires |b| >= 4
    ensures n < TWO_32
  {
    (b[0] as int) * 0x100_0000 + (b[1] as int) * 0x1_0000 + (b[2] as int) * 0x100 + (b[3] as int)
  }

  /** Reading back a written `uint32` gives the value modulo 2^32. */
  lemma U32RoundTrip(n: nat)
    ensures ReadU32(U32(n)) == n % TWO_32
  {
    var m := n % TWO_32;
    var b0, r0 := m / 0x100_0000, m % 0x100_0000;
    var b1, r1 := r0 / 0x1_0000, r0 % 0x1_0000;
    var b2, b3 := r1 / 0x100, r1 % 0x100;
    Arith.ModUnique(m, 0x1_0000, b0 * 0x100 + b1, r1);
    Arith.ModUnique(b0 * 0x100 + b1, 0x100, b0, b1);
    Arith.ModUnique(m, 0x100, b0 * 0x1_0000 + b1 * 0x100 + b2, b3);
    Arith.ModUnique(b0 * 0x1_0000 + b1 * 0x100 + b2, 0x100, b0 * 0x100 + b1, b2);
  }

  /** Every four-byte prefix is the encoding of the value it reads as. */
  lemma ReadU32Inverse(b: seq<byte>)
    requires |b| >= 4
    ensures U32(ReadU32(b)) == b[..4]
  {
    var n := ReadU32(b);
    var b0, b1, b2, b3 := b[0] as int, b[1] as int, b[2] as int, b[3] as int;
    Arith.ModUnique(n, TWO_32, 0, n);
    Arith.ModUnique(n, 0x100_0000, b0, b1 * 0x1_0000 + b2 * 0x100 + b3);
    Arith.ModUnique(n, 0x1_0000, b0 * 0x100 + b1, b2 * 0x100 + b3);
    Arith.ModUnique(b0 * 0x100 + b1, 0x100, b0, b1);
    Arith.ModUnique(n, 0x100, b0 * 0x1_0000 + b1 * 0x100 + b2, b3);
    Arith.ModUnique(b0 * 0x1_0000 + b1 * 0x100 + b2, 0x100, b0 * 0x100 + b1, b2);
  }

  /** The encoding is injective on values below 2^32. */
  lemma U32Injective(m: nat, n: nat)
    requires m < TWO_32 && n < TWO_32
    requires U32(m) == U32(n)
    ensures m == n
  {
    U32RoundTrip(m);
    U32RoundTrip(n);
    assert m == ReadU32(U32(m)) == ReadU32(U32(n)) == n;
  }
}

=== FILE: deframing.dfy ===
/** The receive path of the binary packet protocol (`PacketStream#next_packet`):
    a resumable decoder over the unread input. The first call that sees a
    whole first block deciphers it and learns the packet length; the packet
    is kept as partial state until the rest of it and its MAC have arrived. */
module Deframing {

  import opened Bytes
  import opened Results
  import opened Protocol
  import opened Framing
  import Arith

  /** `@packet` and `@packet_length`: the deciphered bytes read so far of a
      packet whose length is known but whose remainder has not arrived. */
  datatype Partial = Partial(content: seq<byte>, packetLength: nat)

  /** The receive side of the stream: unread input (`@input`), the partial
      packet, and the server state used to decipher and check it. */
  datatype Reader = Reader(input: seq<byte>, partial: Option<Partial>, server: Direction)

  /** One call's outcome: a payload, or `nil` (not enough input yet), and the reader afterwards. */
  datatype Step = Step(packet: Option<seq<byte>>, reader: Reader)

  /** The first read is one cipher block, but never fewer than the four bytes of the length. */
  function FirstBlock(blockSize: nat): (m: nat)
    ensures m >= 4 && m >= blockSize
    ensures m == 4 || m == blockSize
  {
    if blockSize < 4 then 4 else blockSize
  }

  /** The bytes of the packet still to come after the first block. */
  function Need(packetLength: nat, blockSize: nat): int {
    packetLength + 4 - blockSize
  }

  /** The length the decoder knows of on this call: the saved one, or the one
      in the first block if a whole block is available. */
  function KnownLength(rd: Reader): Option<nat>
    requires rd.server.Valid()
  {
    match rd.partial
    case Some(p) => Some(p.packetLength)
    case None =>
      var m := FirstBlock(rd.server.blockSize);
      if |rd.input| < m then None
      else
        var block := rd.server.cipher(rd.input[..m]);
        if |block| < 4 then None else Some(ReadU32(block))
  }

  /** No packet yet: either nothing happened, or only the first block was consumed and saved. */
  ghost predicate Waiting(rd: Reader, next: Reader) {
    && next.server == rd.server
    && (|| next == rd
        || (&& rd.partial.None?
            && next.partial.Some?
            && |rd.input| >= FirstBlock(rd.server.blockSize)
            && next.input == rd.input[FirstBlock(rd.server.blockSize)..]))
  }

  /** A packet was produced: a suffix of the input is left, no partial state,
      and the server state moved on by one packet. */
  ghost predicate Progress(rd: Reader, next: Reader)
    requires rd.server.Valid()
  {
    && next.partial.None?
    && next.server == rd.server.Increment()
    && |next.input| <= |rd.input|
    && next.input == rd.input[|rd.input| - |next.input|..]
    && (rd.partial.None? ==> |next.input| < |rd.input|)
  }

  /** `next_packet`. */
  function NextPacket(rd: Reader): (r: Result<Step, Error>)
    requires rd.server.Valid()
    ensures rd.partial.None? && |rd.input| < FirstBlock(rd.server.blockSize) ==> r == Ok(Step(None, rd))
    ensures (r.Err? && r.error.PaddingError?) <==>
              (KnownLength(rd).Some? && Need(KnownLength(rd).value, rd.server.blockSize) % rd.server.blockSize != 0)
    ensures rd.partial.Some? && Need(rd.partial.value.packetLength, rd.server.blockSize) % rd.server.blockSize == 0
            && |rd.input| < Need(rd.partial.value.packetLength, rd.server.blockSize) + rd.server.macLength
            ==> r == Ok(Step(None, rd))
    ensures r.Ok? && r.value.packet.None? ==> Waiting(rd, r.value.reader)
    ensures r.Ok? && r.value.packet.Some? ==> Progress(rd, r.value.reader)
    ensures r.Ok? ==> r.value.reader.server.Valid()
  {
    match rd.partial
    case Some(p) => Remainder(rd.input, rd.server, p)
    case None =>
      var m := FirstBlock(rd.server.blockSize);
      if |rd.input| < m then Ok(Step(None, rd))
      else
        var block := rd.server.cipher(rd.input[..m]);
        if |block| < 4 then Err(MalformedPacket)
        else Remainder(rd.input[m..], rd.server, Partial(block, ReadU32(block)))
  }

  /** The part of `next_packet` after the length is known: the alignment
      check, the wait for the rest of the packet and its MAC, the padding
      and payload fields, and the MAC check. */
  function Remainder(input: seq<byte>, server: Direction, p: Partial): (r: Result<Step, Error>)
    requires server.Valid()
    ensures (r.Err? && r.error.PaddingError?) <==> Need(p.packetLength, server.blockSize) % server.blockSize != 0
    ensures r.Ok? && r.value.packet.None? ==> r.value.reader == Reader(input, Some(p), server)
    ensures r.Ok? && r.value.packet.None? <==>
              Need(p.packetLength, server.blockSize) % server.blockSize == 0
              && |input| < Need(p.packetLength, server.blockSize) + server.macLength
    ensures r.Ok? && r.value.packet.Some? ==>
              && r.value.reader.partial.None?
              && r.value.reader.server == server.Increment()
              && |r.value.reader.input| <= |input|
              && r.value.reader.input == input[|input| - |r.value.reader.input|..]
  {
    var bs := server.blockSize;
    var need := Need(p.packetLength, bs);
    if need % bs != 0 then Err(PaddingError(need, bs))
    else if |input| < need + server.macLength then Ok(Step(None, Reader(input, Some(p), server)))
    else
      Arith.MultipleAboveMinus(need, bs);
      var content := if need > 0 then p.content + server.cipher(input[..need]) else p.content;
      var realMac := input[need..need + server.macLength];
      var rest := input[need + server.macLength..];
      if |content| < 5 then Err(MalformedPacket)
      else
        var payload := ReadPayload(content, p.packetLength);
        if realMac != server.digest(U32(server.sequenceNumber) + content) then Err(CorruptedMac)
        else Ok(Step(Some(server.compressor(payload)), Reader(rest, None, server.Increment())))
  }

  /** `read_byte` then `read(packet_length - padding_length - 1)` on the
      deciphered packet: the payload sits right after the padding-length
      byte, and a read past the end stops at the end. A negative count reads
      `nil`, which `decompress` turns into an empty payload (`nil.to_s`), so
      such a packet is delivered empty rather than refused. */
  function ReadPayload(content: seq<byte>, packetLength: nat): (r: seq<byte>)
    requires |content| >= 5
    ensures content[4] + 1 > packetLength ==> r == []
    ensures 5 + |r| <= |content| && r == content[5..5 + |r|]
    ensures content[4] + 1 <= packetLength ==> |r| <= packetLength - content[4] - 1
    ensures content[4] + 1 <= packetLength && |r| < packetLength - content[4] - 1 ==> 5 + |r| == |content|
    ensures content[4] + 1 <= packetLength && 4 + packetLength <= |content| ==> |r| == packetLength - content[4] - 1
  {
    var count := packetLength - content[4] - 1;
    if count < 0 then []
    else if 5 + count <= |content| then content[5..5 + count]
    else content[5..]
  }

  /** A call that produced nothing leaves a reader on which the next call,
      with no new input, again produces nothing and changes nothing. */
  lemma WaitingIsStable(rd: Reader)
    requires rd.server.Valid()
    requires NextPacket(rd).Ok? && NextPacket(rd).value.packet.None?
    ensures NextPacket(NextPacket(rd).value.reader) == Ok(Step(None, NextPacket(rd).value.reader))
  {
    var next := NextPacket(rd).value.reader;
    if rd.partial.None? && |rd.input| >= FirstBlock(rd.server.blockSize) {
      var m := FirstBlock(rd.server.blockSize);
      var block := rd.server.cipher(rd.input[..m]);
      assert next == Reader(rd.input[m..], Some(Partial(block, ReadU32(block))), rd.server);
    }
  }

  /** A padding length that leaves no room for a payload is not refused:
      with the initial algorithms (no cipher, no MAC, no compression), a
      16-byte packet whose padding-length byte is 200 decodes to an empty
      payload. */
  lemma OversizedPaddingDeliversEmpty()
    ensures var d := Direction(8, 0, 0, (x: seq<byte>) => x, (x: seq<byte>) => [], (x: seq<byte>) => x, false);
            var b: seq<byte> := [0, 0, 0, 12, 200, 94, 0, 0, 0, 0, 0, 0, 0, 0, 0, 0];
            NextPacket(Reader(b, None, d)) == Ok(Step(Some([]), Reader([], None, d.Increment())))
  {
    var d := Direction(8, 0, 0, (x: seq<byte>) => x, (x: seq<byte>) => [], (x: seq<byte>) => x, false);
    var b: seq<byte> := [0, 0, 0, 12, 200, 94, 0, 0, 0, 0, 0, 0, 0, 0, 0, 0];
    assert ReadU32(b[..8]) == 12;
    assert b[..8] + b[8..][..8] == b;
    assert ReadPayload(b, 12) == [];
  }

  /** Resuming: what a reader that produced nothing makes of more input is
      what the original reader would have made of all the input at once.
      The saved length is used in place of deciphering the first block again. */
  lemma {:induction false} MoreInputResumes(rd: Reader, more: seq<byte>)
    requires rd.server.Valid()
    requires NextPacket(rd).Ok? && NextPacket(rd).value.packet.None?
    ensures var next := NextPacket(rd).value.reader;
            NextPacket(next.(input := next.input + more)) == NextPacket(rd.(input := rd.input + more))
  {
    var next := NextPacket(rd).value.reader;
    if rd.partial.None? && |rd.input| >= FirstBlock(rd.server.blockSize) {
      var m := FirstBlock(rd.server.blockSize);
      var block := rd.server.cipher(rd.input[..m]);
      assert next == Reader(rd.input[m..], Some(Partial(block, ReadU32(block))), rd.server);
      var all := rd.input + more;
      assert all[..m] == rd.input[..m];
      assert all[m..] == rd.input[m..] + more;
    }
  }

  /** The two ends of one direction agree: same block size, MAC length,
      sequence number and MAC function; MACs have the advertised length; the
      ciphers preserve length, the receiving one undoes the sending one and
      deciphers a stream piecewise as it would deciphers it whole; and the
      decompressor undoes the compressor. The identity cipher, no MAC and
      no compression, net-ssh's initial algorithms, are one such pair. */
  ghost predicate Matching(c: Direction, s: Direction) {
    && c.blockSize == s.blockSize
    && c.macLength == s.macLength
    && c.sequenceNumber == s.sequenceNumber
    && (forall x :: s.digest(x) == c.digest(x))
    && (forall x :: |c.digest(x)| == c.macLength)
    && (forall x :: |c.cipher(x)| == |x|)
    && (forall x :: |s.cipher(x)| == |x|)
    && (forall x :: s.cipher(c.cipher(x)) == x)
    && (forall a, b :: s.cipher(a + b) == s.cipher(a) + s.cipher(b))
    && (forall x :: s.compressor(c.compressor(x)) == x)
  }

  /** Decoding one enciphered packet `f`, whose length field is right and
      which ends on a block boundary: a MAC other than the one of the
      sequence number and the clear packet is refused; otherwise the
      decompressed payload field is delivered and exactly the packet and its
      MAC are consumed. */
  lemma {:induction false} DecodeFrame(s: Direction, f: seq<byte>, enc: seq<byte>, mac: seq<byte>, rest: seq<byte>)
    requires s.Valid() && 4 <= s.blockSize
    requires s.blockSize <= |f| && |f| % s.blockSize == 0 && |f| >= 5 && ReadU32(f) == |f| - 4
    requires |enc| == |f| && |mac| == s.macLength
    requires s.cipher(enc[..s.blockSize]) == f[..s.blockSize]
    requires |f| > s.blockSize ==> s.cipher(enc[s.blockSize..]) == f[s.blockSize..]
    ensures NextPacket(Reader(enc + mac + rest, None, s)) ==
              if mac != s.digest(U32(s.sequenceNumber) + f) then Err(CorruptedMac)
              else Ok(Step(Some(s.compressor(ReadPayload(f, |f| - 4))), Reader(rest, None, s.Increment())))
  {
    var bs := s.blockSize;
    var msg := enc + mac + rest;
    assert msg[..bs] == enc[..bs];
    var block := s.cipher(msg[..bs]);
    assert block[..4] == f[..4];
    assert ReadU32(block) == ReadU32(f);
    var len := |f| - 4;
    var need := Need(len, bs);
    Arith.ModAddBlock(need, bs);
    var input := msg[bs..];
    assert need == |enc| - bs;
    assert input == enc[bs..] + mac + rest;
    assert input[..need] == enc[bs..];
    assert input[need..need + s.macLength] == mac;
    assert input[need + s.macLength..] == rest;
    var content := if need > 0 then block + s.cipher(input[..need]) else block;
    assert content == f;
    assert NextPacket(Reader(msg, None, s)) == Remainder(input, s, Partial(block, len));
  }

  /** Decoding what `enqueue_packet` wrote, followed by anything, yields the
      original payload, consumes exactly the packet and its MAC, and moves the
      receiving sequence number on as the sending one moved. */
  lemma {:induction false} RoundTrip(c: Direction, s: Direction, payload: seq<byte>, random: nat -> byte, rest: seq<byte>)
    requires c.Valid() && s.Valid() && Matching(c, s)
    requires 4 <= c.blockSize <= 126
    requires |c.compressor(payload)| + 2 * c.blockSize + 4 < TWO_32
    ensures NextPacket(Reader(EnqueuePacket(c, payload, random).message + rest, None, s))
            == Ok(Step(Some(payload), Reader(rest, None, s.Increment())))
    ensures EnqueuePacket(c, payload, random).client.sequenceNumber == s.Increment().sequenceNumber
  {
    var data := c.compressor(payload);
    var f := Frame(c.blockSize, data, random);
    var mac := c.digest(U32(c.sequenceNumber) + f);
    FrameDecodes(c, data, random);
    CipherPieces(c, s, f);
    assert EnqueuePacket(c, payload, random).message + rest == c.cipher(f) + mac + rest;
    DecodeFrame(s, f, c.cipher(f), mac, rest);
  }

  /** What `enqueue_packet` wrote with its MAC (the last `macLength`
      bytes) replaced by any other bytes of that length is always refused
      as a corrupted MAC, whatever follows it. */
  lemma {:induction false} TamperedMacIsRejected(c: Direction, s: Direction, payload: seq<byte>, random: nat -> byte,
                                                 forged: seq<byte>, rest: seq<byte>)
    requires c.Valid() && s.Valid() && Matching(c, s)
    requires 4 <= c.blockSize <= 126
    requires |c.compressor(payload)| + 2 * c.blockSize + 4 < TWO_32
    requires |forged| == c.macLength
    ensures var m := EnqueuePacket(c, payload, random).message;
            && |m| >= c.macLength
            && (forged != m[|m| - c.macLength..] ==>
                  NextPacket(Reader(m[..|m| - c.macLength] + forged + rest, None, s)) == Err(CorruptedMac))
  {
    var f := Frame(c.blockSize, c.compressor(payload), random);
    var mac := c.digest(U32(c.sequenceNumber) + f);
    var m := EnqueuePacket(c, payload, random).message;
    assert m == c.cipher(f) + mac;
    assert m[..|m| - c.macLength] == c.cipher(f) && m[|m| - c.macLength..] == mac;
    FrameDecodes(c, c.compressor(payload), random);
    CipherPieces(c, s, f);
    DecodeFrame(s, f, c.cipher(f), forged, rest);
  }

  /** A frame built by `enqueue_packet` meets what `DecodeFrame` asks for,
      and its payload field reads back as the payload. */
  lemma FrameDecodes(c: Direction, data: seq<byte>, random: nat -> byte)
    requires c.Valid() && 4 <= c.blockSize <= 126
    requires |data| + 2 * c.blockSize + 4 < TWO_32
    ensures var f := Frame(c.blockSize, data, random);
            && c.blockSize <= |f| && |f| % c.blockSize == 0 && |f| >= 5 && ReadU32(f) == |f| - 4
            && ReadPayload(f, |f| - 4) == data
  {
    var bs := c.blockSize;
    var f := Frame(bs, data, random);
    Arith.MultipleAbove(|f|, bs, 0);
    var padding := PaddingLength(bs, |data|);
    assert padding < 256;
    Arith.ModUnique(padding, 256, 0, padding);
    Arith.ModUnique(|f| - 4, TWO_32, 0, |f| - 4);
    assert f[4] == padding;
  }

  /** Deciphering the first block and the remainder of an enciphered frame
      separately gives back the two parts of the frame. */
  lemma CipherPieces(c: Direction, s: Direction, f: seq<byte>)
    requires Matching(c, s) && 0 < c.blockSize <= |f|
    ensures |c.cipher(f)| == |f|
    ensures s.cipher(c.cipher(f)[..c.blockSize]) == f[..c.blockSize]
    ensures s.cipher(c.cipher(f)[c.blockSize..]) == f[c.blockSize..]
  {
    var enc := c.cipher(f);
    var m := c.blockSize;
    assert enc == enc[..m] + enc[m..];
    assert s.cipher(enc) == s.cipher(enc[..m]) + s.cipher(enc[m..]);
    assert |s.cipher(enc[..m])| == m;
  }
}

=== FILE: essh.dfy ===
/** `ESSH.start` up to the point where it opens the transport: the check of
    option names, the defaults, the report of `nil` options, the merge with
    the configuration files and the rewriting of `:user`, `:host_name`,
    `:non_interactive` and `:verbose`. */
module Essh {

  import opened Results
  import opened Values

  /** The option names `start` accepts. */
  const VALID_OPTIONS: set<string> := {
    "auth_methods", "bind_address", "compression", "compression_level", "config",
    "encryption", "forward_agent", "hmac", "host_key", "remote_user",
    "keepalive", "keepalive_interval", "keepalive_maxcount", "kex", "keys", "key_data",
    "languages", "logger", "paranoid", "password", "port", "proxy",
    "rekey_blocks_limit", "rekey_limit", "rekey_packet_limit", "timeout", "verbose",
    "known_hosts", "global_known_hosts_file", "user_known_hosts_file", "host_key_alias",
    "host_name", "user", "properties", "passphrase", "keys_only", "max_pkt_size",
    "max_win_size", "send_env", "use_agent", "number_of_password_prompts",
    "append_all_supported_algorithms", "non_interactive", "password_prompt",
    "agent_socket_factory", "minimum_dh_bits"
  }

  /** The levels of Ruby's `Logger`. */
  const LOG_DEBUG: int := 0
  const LOG_INFO: int := 1
  const LOG_WARN: int := 2
  const LOG_ERROR: int := 3
  const LOG_FATAL: int := 4

  /** The keys `assign_defaults` may touch. */
  const DEFAULTED: set<string> := {"logger", "password_prompt", "password", "passphrase"}

  /** `options.keys - VALID_OPTIONS`. */
  function InvalidOptions(o: Options): (r: set<string>)
    ensures r <= o.Keys
    ensures r == {} <==> o.Keys <= VALID_OPTIONS
  {
    var r := set k | k in o && k !in VALID_OPTIONS;
    assert forall k :: k in o && k !in VALID_OPTIONS ==> k in r;
    r
  }

  /** Deleting `key` when it is present with the value `nil`. */
  function DropNil(o: Options, key: string): (r: Options)
    ensures key in r <==> key in o && o[key] != Nil
    ensures forall k :: k in r ==> k in o && r[k] == o[k]
    ensures forall k :: k in o && k != key ==> k in r
  {
    if key in o && o[key] == Nil then o - {key} else o
  }

  /** `assign_defaults`: a logger at level FATAL when `:logger` is absent or
      false, the default prompt when `:password_prompt` is, and `:password`
      and `:passphrase` deleted when they are given as `nil`. */
  function AssignDefaults(o: Options): (r: Options)
    ensures "logger" in r && "password_prompt" in r
    ensures Truthy(Get(o, "logger")) ==> r["logger"] == o["logger"]
    ensures !Truthy(Get(o, "logger")) ==> r["logger"] == Logger(LOG_FATAL)
    ensures Truthy(Get(o, "password_prompt")) ==> r["password_prompt"] == o["password_prompt"]
    ensures !Truthy(Get(o, "password_prompt")) ==> r["password_prompt"] == Prompt
    ensures forall key :: key in {"password", "passphrase"} ==>
              (key in r <==> key in o && o[key] != Nil) && (key in r ==> r[key] == o[key])
    ensures forall k :: k !in DEFAULTED ==> (k in r <==> k in o) && (k in o ==> r[k] == o[k])
  {
    var withLogger := if Truthy(Get(o, "logger")) then o else o["logger" := Logger(LOG_FATAL)];
    var withPrompt :=
      if Truthy(Get(withLogger, "password_prompt")) then withLogger
      else withLogger["password_prompt" := Prompt];
    DropNil(DropNil(withPrompt, "password"), "passphrase")
  }

  /** Applying the defaults twice is applying them once. */
  lemma AssignDefaultsIdempotent(o: Options)
    ensures AssignDefaults(AssignDefaults(o)) == AssignDefaults(o)
  {
    var r := AssignDefaults(o);
    var rr := AssignDefaults(r);
    assert rr.Keys == r.Keys;
    forall k | k in r ensures rr[k] == r[k] {
    }
  }

  /** The values `_sanitize_options` warns about. */
  predicate Deprecated(v: Value) {
    v == Nil || v == List([Nil])
  }

  /** `_sanitize_options`: the keys named in the deprecation warning (none
      means no warning). The options themselves are not changed. */
  function SanitizeOptions(o: Options): (warned: set<string>)
    ensures warned <= o.Keys
    ensures forall k :: k in o ==> (k in warned <==> Deprecated(o[k]))
  {
    set k | k in o && Deprecated(o[k])
  }

  /** After the defaults, a key that `assign_defaults` handles is reported
      only when it was given as `[nil]` (a `nil` logger or prompt was
      replaced and a `nil` password or passphrase deleted); every other key
      is reported exactly when it was given as `nil` or `[nil]`. */
  lemma DefaultsSilenceWarnings(o: Options)
    ensures var warned := SanitizeOptions(AssignDefaults(o));
            && (forall k :: k in DEFAULTED ==> (k in warned <==> k in o && o[k] == List([Nil])))
            && (forall k :: k !in DEFAULTED ==> (k in warned <==> k in o && Deprecated(o[k])))
  {
    var d := AssignDefaults(o);
    var warned := SanitizeOptions(d);
    forall k | k in DEFAULTED
      ensures k in warned <==> k in o && o[k] == List([Nil])
    {
      assert k in warned <==> k in d && Deprecated(d[k]);
    }
    forall k | k !in DEFAULTED
      ensures k in warned <==> k in o && Deprecated(o[k])
    {
      assert k in warned <==> k in d && Deprecated(d[k]);
    }
  }

  datatype ArgumentError =
    | InvalidOptionNames(names: set<string>)   // "invalid option(s): .."
    | BadVerbosity(verbose: Value)             // "can't convert .. to any of the Logger level constants"
    | NotALogger(logger: Value)                // `level=` sent to something that is not a logger

  /** The Logger level a `:verbose` value stands for. */
  function Verbosity(v: Value): (r: Result<int, ArgumentError>)
    ensures v.Int? ==> r == Ok(v.i)
    ensures r.Err? <==> !v.Int? && v !in {Sym("debug"), Sym("info"), Sym("warn"), Sym("error"), Sym("fatal")}
    ensures r.Err? ==> r.error == BadVerbosity(v)
    ensures v.Sym? && r.Ok? ==> LOG_DEBUG <= r.value <= LOG_FATAL
  {
    match v
    case Int(i) => Ok(i)
    case Sym(name) =>
      if name == "debug" then Ok(LOG_DEBUG)
      else if name == "info" then Ok(LOG_INFO)
      else if name == "warn" then Ok(LOG_WARN)
      else if name == "error" then Ok(LOG_ERROR)
      else if name == "fatal" then Ok(LOG_FATAL)
      else Err(BadVerbosity(v))
    case _ => Err(BadVerbosity(v))
  }

  /** The symbol naming a Logger level. */
  function LevelName(level: int): string
    requires LOG_DEBUG <= level <= LOG_FATAL
  {
    ["debug", "info", "warn", "error", "fatal"][level]
  }

  /** Each level's name maps to that level, so the names are distinct. */
  lemma LevelNamesMap(level: int)
    requires LOG_DEBUG <= level <= LOG_FATAL
    ensures Verbosity(Sym(LevelName(level))) == Ok(level)
  {
  }

  /** `configuration_for(host, use_ssh_config)`: nothing when the setting is
      `false` or `nil`, otherwise what the configuration files say for the
      host (`files` stands for that, as reading them is I/O). */
  function ConfigurationFor(useConfig: Value, files: Options): (r: Options)
    ensures !Truthy(useConfig) ==> r == map[]
    ensures Truthy(useConfig) ==> r == files
  {
    if !Truthy(useConfig) then map[] else files
  }

  /** `options.fetch(:config, true)`. */
  function ConfigSetting(o: Options): Value {
    if "config" in o then o["config"] else Bool(true)
  }

  /** What `start` hands to the transport: the host to connect to, the final
      options and the keys reported as `nil`. */
  datatype Started = Started(host: Value, options: Options, warned: set<string>)

  /** The options after the defaults and the `user` argument, before the
      merge. */
  function Explicit(user: Value, o: Options): (r: Options)
    ensures Truthy(user) ==> "user" in r && r["user"] == user
    ensures !Truthy(user) ==> r == AssignDefaults(o)
    ensures forall k :: k != "user" ==>
              (k in r <==> k in AssignDefaults(o)) && (k in r ==> r[k] == AssignDefaults(o)[k])
  {
    var d := AssignDefaults(o);
    if Truthy(user) then d["user" := user] else d
  }

  /** The last rewriting steps of `start`: `:non_interactive` forces
      `:number_of_password_prompts` to 0, and a true `:verbose` sets the
      logger's level. */
  function Rewrite(m: Options): (r: Result<Options, ArgumentError>)
    requires "logger" in m
    ensures Truthy(Get(m, "non_interactive")) && r.Ok? ==>
              "number_of_password_prompts" in r.value && r.value["number_of_password_prompts"] == Int(0)
    ensures !Truthy(Get(m, "verbose")) ==> r.Ok?
    ensures Truthy(Get(m, "verbose")) ==>
              (r.Ok? <==> Verbosity(m["verbose"]).Ok? && m["logger"].Logger?)
    ensures Truthy(Get(m, "verbose")) && r.Ok? ==>
              "logger" in r.value && r.value["logger"] == Logger(Verbosity(m["verbose"]).value)
    ensures r.Ok? ==> r.value.Keys == m.Keys + (if Truthy(Get(m, "non_interactive")) then {"number_of_password_prompts"} else {})
    ensures r.Ok? ==> forall k :: k in m && k != "logger" && k != "number_of_password_prompts" ==> r.value[k] == m[k]
    ensures r.Ok? && !Truthy(Get(m, "verbose")) ==> r.value["logger"] == m["logger"]
    ensures r.Ok? && !Truthy(Get(m, "non_interactive")) && "number_of_password_prompts" in m ==>
              r.value["number_of_password_prompts"] == m["number_of_password_prompts"]
  {
    var quiet := if Truthy(Get(m, "non_interactive")) then m["number_of_password_prompts" := Int(0)] else m;
    if !Truthy(Get(quiet, "verbose")) then Ok(quiet)
    else
      match Verbosity(quiet["verbose"])
      case Err(e) => Err(e)
      case Ok(level) =>
        if quiet["logger"].Logger? then Ok(quiet["logger" := Logger(level)])
        else Err(NotALogger(quiet["logger"]))
  }

  /** `ESSH.start(host, user, **options)` up to opening the transport. */
  function Start(host: string, user: Value, o: Options, files: Options): (r: Result<Started, ArgumentError>)
    ensures r.Err? && r.error.InvalidOptionNames? <==> !(o.Keys <= VALID_OPTIONS)
    ensures r.Err? && r.error.InvalidOptionNames? ==> r.error.names == InvalidOptions(o)
    ensures o.Keys <= VALID_OPTIONS ==>
              && (r.Ok? <==> Rewrite(Merged(host, user, o, files)).Ok?)
              && (r.Err? ==> r.error == Rewrite(Merged(host, user, o, files)).error)
    ensures r.Ok? ==>
              && r.value.options == Rewrite(Merged(host, user, o, files)).value
              && r.value.host == HostName(host, Merged(host, user, o, files))
              && r.value.warned == SanitizeOptions(AssignDefaults(o))
  {
    var invalid := InvalidOptions(o);
    if invalid != {} then Err(InvalidOptionNames(invalid))
    else
      var merged := Merged(host, user, o, files);
      match Rewrite(merged)
      case Err(e) => Err(e)
      case Ok(options) => Ok(Started(HostName(host, merged), options, SanitizeOptions(AssignDefaults(o))))
  }

  /** `options.fetch(:host_name, host)`. */
  function HostName(host: string, merged: Options): Value {
    if "host_name" in merged then merged["host_name"] else Str(host)
  }

  /** The configuration merged under the explicit options. */
  function Merged(host: string, user: Value, o: Options, files: Options): (r: Options)
    ensures "logger" in r && Truthy(r["logger"])
  {
    var explicit := Explicit(user, o);
    ConfigurationFor(ConfigSetting(explicit), files) + explicit
  }

  /** In the merge, every explicit option (after the defaults) wins over the
      configuration files, and the files supply only what was not given. */
  lemma ExplicitOverridesConfig(host: string, user: Value, o: Options, files: Options)
    ensures var m, e := Merged(host, user, o, files), Explicit(user, o);
            && (forall k :: k in e ==> k in m && m[k] == e[k])
            && (forall k :: k in m && k !in e ==> Truthy(ConfigSetting(e)) && k in files && m[k] == files[k])
  {
  }

  /** The `user` argument, when given, is the user the transport sees,
      whatever the options or the configuration files say. */
  lemma UserArgumentWins(host: string, user: Value, o: Options, files: Options)
    requires Truthy(user)
    ensures Start(host, user, o, files).Ok? ==>
              "user" in Start(host, user, o, files).value.options
              && Start(host, user, o, files).value.options["user"] == user
  {
    ExplicitOverridesConfig(host, user, o, files);
  }

  /** The host connected to is `:host_name` when the explicit options or the
      configuration files give one, and the host argument otherwise. */
  lemma HostNameWins(host: string, user: Value, o: Options, files: Options)
    requires Start(host, user, o, files).Ok?
    ensures var m := Merged(host, user, o, files);
            Start(host, user, o, files).value.host == if "host_name" in m then m["host_name"] else Str(host)
    ensures "host_name" in Explicit(user, o) ==>
              Start(host, user, o, files).value.host == Explicit(user, o)["host_name"]
  {
    ExplicitOverridesConfig(host, user, o, files);
  }

  /** `:config => false` turns the configuration files off: only explicit
      options remain. */
  lemma ConfigOff(host: string, user: Value, o: Options, files: Options)
    requires "config" in o && o["config"] == Bool(false)
    ensures Merged(host, user, o, files) == Explicit(user, o)
  {
    var e := Explicit(user, o);
    assert ConfigSetting(e) == Bool(false);
    assert map[] + e == e;
  }
}

=== FILE: framing.dfy ===
/** The send path of the binary packet protocol (`PacketStream#enqueue_packet`),
    section 6 of RFC 4253: compress, pad to the cipher's block size, lay out
    `uint32 packet_length | byte padding_length | payload | padding`, MAC the
    sequence number and the clear text, encrypt, append the MAC. */
module Framing {

  import opened Bytes
  import Arith

  /** One direction's algorithm state (net-ssh's `Transport::State`).
      The cipher, HMAC and compressor are opaque capabilities: `cipher` is
      `update_cipher` (encryption on the client side, decryption on the
      server side), `digest` is `hmac.digest` and `compressor` is `compress`
      on the client side and `decompress` on the server side. The byte and
      packet counters are summarised by `needsRekey`. */
  datatype Direction = Direction(
    blockSize: nat,
    macLength: nat,
    sequenceNumber: nat,
    cipher: seq<byte> -> seq<byte>,
    digest: seq<byte> -> seq<byte>,
    compressor: seq<byte> -> seq<byte>,
    needsRekey: bool)
  {
    /** Sequence numbers are `uint32` and a block size of zero would divide by zero. */
    predicate Valid() {
      blockSize > 0 && sequenceNumber < TWO_32
    }

    /** `increment`: one more packet in this direction; the sequence number wraps at 2^32. */
    function Increment(): (d: Direction)
      requires Valid()
      ensures d.Valid()
      ensures d.sequenceNumber == if sequenceNumber == TWO_32 - 1 then 0 else sequenceNumber + 1
      ensures d.(sequenceNumber := sequenceNumber) == this
    {
      this.(sequenceNumber := (sequenceNumber + 1) % TWO_32)
    }

    /** `reset!`: the counters start again, so no rekey is due. */
    function Reset(): (d: Direction)
      ensures !d.needsRekey
      ensures d.(needsRekey := needsRekey) == this
    {
      this.(needsRekey := false)
    }
  }

  /** The padding the encoder picks for a (compressed) payload of `size` bytes:
      enough to reach the next block boundary, one more block if that is under
      four bytes, and one more block again if the packet would be shorter than
      sixteen bytes. The whole packet ends on a block boundary, the padding is
      at least four bytes for any real block size, and the packet, length field
      included, is at least the sixteen bytes section 6 of RFC 4253 asks for. */
  function PaddingLength(blockSize: nat, size: nat): (p: nat)
    requires blockSize > 0
    ensures (4 + 1 + size + p) % blockSize == 0
    ensures blockSize >= 3 ==> p >= 4
    ensures p <= 2 * blockSize + 3
    ensures blockSize >= 6 ==> 4 + size + p + 1 >= 16
    ensures blockSize % 8 == 0 ==> size + p + 1 >= 16
  {
    var p1 := AlignedPadding(blockSize, size);
    if size + p1 + 1 < 16 then
      Arith.ModAddBlock(4 + 1 + size + p1, blockSize);
      MinimumPacket(blockSize, size, p1);
      p1 + blockSize
    else
      p1
  }

  /** Adding one block to a short aligned packet reaches the minimum size. */
  lemma MinimumPacket(blockSize: nat, size: nat, p1: nat)
    requires blockSize > 0 && p1 >= 1
    requires (4 + 1 + size + p1) % blockSize == 0
    requires blockSize >= 3 ==> p1 >= 4
    ensures blockSize >= 6 ==> 4 + size + p1 + blockSize + 1 >= 16
    ensures blockSize % 8 == 0 ==> size + p1 + blockSize + 1 >= 16
  {
    var x := 4 + 1 + size + p1;
    if 6 <= blockSize <= 8 {
      Arith.MultipleAbove(x, blockSize, 1);
    }
    if blockSize % 8 == 0 && blockSize < 16 {
      assert blockSize == 8;
      Arith.MultipleAbove(x, blockSize, 1);
    }
  }

  /** The padding before the sixteen-byte minimum is applied: up to the next
      block boundary, plus a block when that leaves fewer than four bytes. */
  function AlignedPadding(blockSize: nat, size: nat): (p: nat)
    requires blockSize > 0
    ensures (4 + 1 + size + p) % blockSize == 0
    ensures blockSize >= 3 ==> 4 <= p
    ensures 1 <= p <= blockSize + 3
  {
    var actual := 4 + size + 1;
    var p0 := blockSize - actual % blockSize;
    Arith.ModRoundUp(actual, blockSize);
    if p0 < 4 then
      Arith.ModAddBlock(actual + p0, blockSize);
      p0 + blockSize
    else
      p0
  }

  /** The aligned padding is the least one of at least four bytes that ends
      the packet on a block boundary. */
  lemma AlignedPaddingIsLeast(blockSize: nat, size: nat, q: nat)
    requires blockSize >= 3
    requires q >= 4 && (4 + 1 + size + q) % blockSize == 0
    ensures AlignedPadding(blockSize, size) <= q
  {
    var p := AlignedPadding(blockSize, size);
    if q < p {
      var a := 4 + 1 + size;
      Arith.ModDifference(a + p, a + q, blockSize);
      Arith.ModUnique(p - q, blockSize, 0, p - q);
      assert false;
    }
  }

  /** After the sixteen-byte adjustment the padding is still the least that
      works: no padding of at least four bytes that aligns the packet and
      makes `packet_length` at least sixteen is shorter. */
  lemma PaddingLengthIsLeast(blockSize: nat, size: nat, q: nat)
    requires blockSize >= 3
    requires q >= 4 && (4 + 1 + size + q) % blockSize == 0 && size + q + 1 >= 16
    ensures PaddingLength(blockSize, size) <= q
  {
    var p1 := AlignedPadding(blockSize, size);
    AlignedPaddingIsLeast(blockSize, size, q);
    if size + p1 + 1 < 16 {
      var a := 4 + 1 + size;
      Arith.ModDifference(a + q, a + p1, blockSize);
      Arith.MultipleAbove(q - p1, blockSize, 0);
    }
  }

  /** A two-byte payload under an eight-byte block gets seventeen bytes of
      padding: nine to align with at least four, then one more block because
      a twelve-byte packet is under the minimum. */
  lemma SmallPayloadPadding()
    ensures AlignedPadding(8, 2) == 9
    ensures PaddingLength(8, 2) == 17 && PacketLength(8, 2) == 20
  {
  }

  /** The packet_length field: everything after it except the MAC. */
  function PacketLength(blockSize: nat, size: nat): nat
    requires blockSize > 0
  {
    size + PaddingLength(blockSize, size) + 1
  }

  /** The unencrypted packet. `random` stands for `rand(256)`, one call per
      padding byte; the padding-length byte is packed with `C`, which keeps
      its low eight bits. */
  function Frame(blockSize: nat, payload: seq<byte>, random: nat -> byte): (f: seq<byte>)
    requires blockSize > 0
    ensures |f| == 4 + PacketLength(blockSize, |payload|)
    ensures |f| % blockSize == 0
    ensures ReadU32(f) == (|f| - 4) % TWO_32
    ensures f[4] == PaddingLength(blockSize, |payload|) % 256
    ensures f[5..5 + |payload|] == payload
    ensures |f| - 5 - |payload| == PaddingLength(blockSize, |payload|)
  {
    var padding := PaddingLength(blockSize, |payload|);
    var packetLength := |payload| + padding + 1;
    U32RoundTrip(packetLength);
    var f := U32(packetLength) + [padding % 256] + payload + seq(padding, (i: int) requires 0 <= i => random(i));
    assert f[..4] == U32(packetLength);
    f
  }

  /** What `enqueue_packet` writes and the client state it leaves. */
  datatype Sent = Sent(message: seq<byte>, client: Direction)

  /** `enqueue_packet`: the MAC covers the sequence number and the clear
      text; only the packet itself is encrypted and the MAC follows it. */
  function EnqueuePacket(client: Direction, payload: seq<byte>, random: nat -> byte): (r: Sent)
    requires client.Valid()
    ensures r.client == client.Increment()
    ensures var clear := Frame(client.blockSize, client.compressor(payload), random);
            r.message == client.cipher(clear) + client.digest(U32(client.sequenceNumber) + clear)
  {
    var data := client.compressor(payload);
    var clear := Frame(client.blockSize, data, random);
    var mac := client.digest(U32(client.sequenceNumber) + clear);
    Sent(client.cipher(clear) + mac, client.Increment())
  }

  /** Consecutive `enqueue_packet` calls, each drawing its own padding bytes:
      the messages written one after another, and the client state after the
      last, whose sequence number has moved on once per packet. */
  function EnqueueAll(client: Direction, payloads: seq<seq<byte>>, randoms: seq<nat -> byte>): (r: Sent)
    requires client.Valid() && |randoms| == |payloads|
    ensures r.client == client.(sequenceNumber := (client.sequenceNumber + |payloads|) % TWO_32)
    ensures |payloads| == 0 ==> r.message == []
    ensures |payloads| > 0 ==>
              var first := EnqueuePacket(client, payloads[0], randoms[0]).message;
              |first| <= |r.message| && r.message[..|first|] == first
    decreases |payloads|
  {
    if |payloads| == 0 then Sent([], client)
    else
      var e := EnqueuePacket(client, payloads[0], randoms[0]);
      var more := EnqueueAll(e.client, payloads[1..], randoms[1..]);
      Arith.ModAddBlock(|payloads| - 1, TWO_32);
      assert (e.message + more.message)[..|e.message|] == e.message;
      Sent(e.message + more.message, more.client)
  }
}

=== FILE: protocol.dfy ===
/** Transport-layer message numbers of section 12 of RFC 4253 that the
    packet stream looks at, and the exceptions the transport raises. */
module Protocol {

  import opened Bytes

  const DISCONNECT: int := 1
  const IGNORE: int := 2
  const UNIMPLEMENTED: int := 3
  const DEBUG: int := 4
  const SERVICE_REQUEST: int := 5
  const KEXINIT: int := 20

  /** The exceptions raised by `reject_and_raise`, plus the crash the
      source hits when a field is missing from a too-short packet. */
  datatype Error =
    | PaddingError(need: int, blockSize: nat)   // "padding error, need .. block .."
    | CorruptedMac                              // "corrupted mac detected"
    | MalformedPacket                           // `read_long` or `read_byte` gives `nil`, and arithmetic on it raises
    | IncompatibleVersion(version: seq<byte>)   // "incompatible SSH version: .."
    | Disconnected                              // `Net::SSH::Disconnect`
  {
    /** Raised through `reject_and_raise`, which also closes the stream with
        this error as the reason; a crash is raised without closing it. */
    predicate Rejects() {
      !MalformedPacket?
    }
  }
}

=== FILE: results.dfy ===
/** Failure-compatible wrappers used for the transport's raised exceptions
    and for Ruby's `nil` returns. */
module Results {

  /** A value or Ruby's `nil`. */
  datatype Option<+T> = None | Some(value: T)

  /** A value, or the exception the source raises instead of returning it. */
  datatype Result<+T, +E> = Ok(value: T) | Err(error: E) {

    predicate IsFailure() {
      Err?
    }

    function PropagateFailure<U>(): Result<U, E>
      requires Err?
    {
      Err(error)
    }

    function Extract(): T
      requires Ok?
    {
      value
    }
  }
}

=== FILE: session.dfy ===
/** `Transport::Session`: the default port, the known-hosts name of the
    peer (`host_as_string`), the choice of host-key verifier, the
    SERVICE_REQUEST message, hints, and the rekey entry points. */
module TransportSession {

  import opened Bytes
  import opened Results
  import opened Protocol
  import opened Values
  import opened PacketStream

  /** The standard port for the protocol. */
  const DEFAULT_PORT: nat := 22

  /** `options[:port] || DEFAULT_PORT`. */
  function PortOption(o: Options): (p: Value)
    ensures Truthy(p)
    ensures !Truthy(Get(o, "port")) <==> p == Int(DEFAULT_PORT) && Get(o, "port") != Int(DEFAULT_PORT)
    ensures Truthy(Get(o, "port")) ==> p == o["port"]
  {
    var v := Get(o, "port");
    if Truthy(v) then v else Int(DEFAULT_PORT)
  }

  // ---------------------------------------------------------------------
  // Known-hosts names

  function Digit(d: nat): (c: char)
    requires d < 10
    ensures '0' <= c <= '9'
  {
    (('0' as int) + d) as char
  }

  /** The decimal text of a number, as `to_s` writes it. */
  function Decimal(n: nat): (s: string)
    ensures |s| >= 1
    ensures forall i :: 0 <= i < |s| ==> '0' <= s[i] <= '9'
    decreases n
  {
    if n < 10 then [Digit(n)] else Decimal(n / 10) + [Digit(n % 10)]
  }

  /** Reading decimal digits back. */
  function ParseDecimal(s: string): nat
    requires forall i :: 0 <= i < |s| ==> '0' <= s[i] <= '9'
    decreases |s|
  {
    if |s| == 0 then 0
    else ParseDecimal(s[..|s| - 1]) * 10 + ((s[|s| - 1] as int) - ('0' as int))
  }

  lemma {:induction false} DecimalRoundTrip(n: nat)
    ensures ParseDecimal(Decimal(n)) == n
    decreases n
  {
    if n >= 10 {
      var s := Decimal(n);
      DecimalRoundTrip(n / 10);
      assert s[..|s| - 1] == Decimal(n / 10);
    }
  }

  /** One name of a known-hosts line: the bare name on the default port,
      `[name]:port` otherwise. */
  function Entry(name: string, port: nat): (s: string)
    ensures port == DEFAULT_PORT ==> s == name
    ensures port != DEFAULT_PORT ==> |s| > |name| + 2 && s[0] == '[' && s[1..|name| + 1] == name
  {
    if port == DEFAULT_PORT then name else "[" + name + "]:" + Decimal(port)
  }

  /** `host_as_string`: the host's entry, followed by the peer address's
      entry when the address is not the host name itself. */
  function HostAsString(host: string, port: nat, peerIp: string): (s: string)
    ensures peerIp == host ==> s == Entry(host, port)
    ensures peerIp != host ==> s == Entry(host, port) + "," + Entry(peerIp, port)
  {
    var first := Entry(host, port);
    if peerIp != host then first + "," + Entry(peerIp, port) else first
  }

  /** A name that fits in a known-hosts list without quoting. */
  predicate PlainName(name: string) {
    && |name| > 0
    && name[0] != '['
    && forall i :: 0 <= i < |name| ==> name[i] != ',' && name[i] != ']'
  }

  datatype HostPort = HostPort(name: string, port: nat)

  /** Reading one entry back. */
  function ParseEntry(s: string): Option<HostPort> {
    if |s| > 0 && s[0] == '[' then
      match Find(s, ']', 1)
      case None => None
      case Some(close) =>
        var digits := s[close + 1..];
        if |digits| >= 2 && digits[0] == ':' && AllDigits(digits[1..]) then
          Some(HostPort(s[1..close], ParseDecimal(digits[1..])))
        else None
    else Some(HostPort(s, DEFAULT_PORT))
  }

  predicate AllDigits(s: string) {
    forall i :: 0 <= i < |s| ==> '0' <= s[i] <= '9'
  }

  /** The first position at or after `from` holding `c`. */
  function Find(s: string, c: char, from: nat): (r: Option<nat>)
    ensures r.Some? ==> from <= r.value < |s| && s[r.value] == c
    ensures r.Some? ==> forall k :: from <= k < r.value ==> s[k] != c
    ensures r.None? ==> forall k :: from <= k < |s| ==> s[k] != c
    decreases |s| - from
  {
    if from >= |s| then None else if s[from] == c then Some(from) else Find(s, c, from + 1)
  }

  /** `Find` stops at the first occurrence. */
  lemma {:induction false} FindFirst(s: string, c: char, from: nat, k: nat)
    requires from <= k < |s| && s[k] == c
    requires forall j :: from <= j < k ==> s[j] != c
    ensures Find(s, c, from) == Some(k)
    decreases k - from
  {
    if from < k {
      FindFirst(s, c, from + 1, k);
    }
  }

  /** Splitting a list at its first comma. */
  function SplitComma(s: string): (r: (string, Option<string>))
    ensures r.1.None? ==> r.0 == s
    ensures r.1.Some? ==> s == r.0 + "," + r.1.value
    ensures ',' !in r.0
  {
    match Find(s, ',', 0)
    case None => (s, None)
    case Some(k) =>
      assert s == s[..k] + "," + s[k + 1..];
      (s[..k], Some(s[k + 1..]))
  }

  lemma EntryParses(name: string, port: nat)
    requires PlainName(name)
    ensures ParseEntry(Entry(name, port)) == Some(HostPort(name, port))
    ensures ',' !in Entry(name, port)
  {
    if port != DEFAULT_PORT {
      var digits := Decimal(port);
      var s := Entry(name, port);
      var close := |name| + 1;
      assert s == ['['] + name + [']', ':'] + digits;
      BracketedFind(name, digits);
      assert s[close + 1..] == [':'] + digits;
      assert s[1..close] == name;
      assert AllDigits(digits);
      DecimalRoundTrip(port);
      EntryNoComma(name, digits);
    }
  }

  lemma BracketedFind(name: string, digits: string)
    requires PlainName(name)
    ensures Find(['['] + name + [']', ':'] + digits, ']', 1) == Some(|name| + 1)
  {
    var s := ['['] + name + [']', ':'] + digits;
    assert forall k :: 1 <= k < |name| + 1 ==> s[k] == name[k - 1];
    FindFirst(s, ']', 1, |name| + 1);
  }

  lemma EntryNoComma(name: string, digits: string)
    requires PlainName(name) && AllDigits(digits)
    ensures ',' !in ['['] + name + [']', ':'] + digits
  {
    var s := ['['] + name + [']', ':'] + digits;
    assert forall k :: 1 <= k < |name| + 1 ==> s[k] == name[k - 1];
    assert forall k :: |name| + 3 <= k < |s| ==> s[k] == digits[k - |name| - 3];
  }

  /** Splitting at the first comma of `first + "," + second` when `first`
      holds none. */
  lemma SplitsAtComma(first: string, second: string)
    requires ',' !in first
    ensures SplitComma(first + "," + second) == (first, Some(second))
  {
    var s := first + "," + second;
    assert forall k :: 0 <= k < |first| ==> s[k] == first[k];
    FindFirst(s, ',', 0, |first|);
    assert s[..|first|] == first;
    assert s[|first| + 1..] == second;
  }

  /** `host_as_string` read back: the host with the port, then the peer
      address with the same port when it differs from the host. */
  lemma HostAsStringParses(host: string, port: nat, peerIp: string)
    requires PlainName(host) && PlainName(peerIp)
    ensures var parts := SplitComma(HostAsString(host, port, peerIp));
            && ParseEntry(parts.0) == Some(HostPort(host, port))
            && (peerIp == host <==> parts.1.None?)
            && (parts.1.Some? ==> ParseEntry(parts.1.value) == Some(HostPort(peerIp, port)))
  {
    EntryParses(host, port);
    if peerIp != host {
      EntryParses(peerIp, port);
      SplitsAtComma(Entry(host, port), Entry(peerIp, port));
    }
  }

  // ---------------------------------------------------------------------
  // Host-key verifiers

  /** The verifiers of `Net::SSH::Verifiers`, or a caller's object that
      responds to `verify`. */
  datatype Verifier = Lenient | NullVerifier | Strict | Secure | Custom(id: nat)

  datatype ArgumentError = InvalidParanoid(value: Value)

  /** `select_host_key_verifier(paranoid)`. */
  function SelectHostKeyVerifier(paranoid: Value): (r: Result<Verifier, ArgumentError>)
    ensures r == Ok(Lenient) <==> paranoid == Bool(true) || paranoid == Nil
    ensures r == Ok(NullVerifier) <==> paranoid == Bool(false)
    ensures r == Ok(Strict) <==> paranoid == Sym("very")
    ensures r == Ok(Secure) <==> paranoid == Sym("secure")
    ensures r.Ok? && r.value.Custom? <==> paranoid.Obj? && paranoid.respondsToVerify
    ensures r.Err? ==> r.error == InvalidParanoid(paranoid)
  {
    match paranoid
    case Nil => Ok(Lenient)
    case Bool(b) => if b then Ok(Lenient) else Ok(NullVerifier)
    case Sym(name) =>
      if name == "very" then Ok(Strict)
      else if name == "secure" then Ok(Secure)
      else Err(InvalidParanoid(paranoid))
    case Obj(id, responds) => if responds then Ok(Custom(id)) else Err(InvalidParanoid(paranoid))
    case _ => Err(InvalidParanoid(paranoid))
  }

  /** The `:paranoid` setting that asks for a verifier. */
  function ParanoidFor(v: Verifier): Value {
    match v
    case Lenient => Bool(true)
    case NullVerifier => Bool(false)
    case Strict => Sym("very")
    case Secure => Sym("secure")
    case Custom(id) => Obj(id, true)
  }

  /** Every verifier can be asked for, and asking for it selects it. */
  lemma SelectsEveryVerifier(v: Verifier)
    ensures SelectHostKeyVerifier(ParanoidFor(v)) == Ok(v)
  {
  }

  // ---------------------------------------------------------------------
  // Messages and hints

  /** `service_request(service)`: the message number, then the name as an
      SSH `string` (section 5 of RFC 4251). */
  function ServiceRequest(service: seq<byte>): (m: seq<byte>)
    ensures |m| == 5 + |service|
    ensures m[0] == SERVICE_REQUEST
    ensures m[5..] == service
  {
    [SERVICE_REQUEST as byte] + U32(|service|) + service
  }

  /** Reading a SERVICE_REQUEST message back. */
  function ParseServiceRequest(m: seq<byte>): Option<seq<byte>> {
    if |m| < 5 || m[0] != SERVICE_REQUEST then None
    else
      var n := ReadU32(m[1..5]);
      if |m| != 5 + n then None else Some(m[5..])
  }

  lemma ServiceRequestRoundTrip(service: seq<byte>)
    requires |service| < TWO_32
    ensures ParseServiceRequest(ServiceRequest(service)) == Some(service)
  {
    var m := ServiceRequest(service);
    assert m[1..5] == U32(|service|);
    U32RoundTrip(|service|);
  }

  /** `hint(which, value = true)`: one hint is set, no other changes. */
  function Hint(s: Stream, which: string, value: Value): (t: Stream)
    ensures which in t.hints && t.hints[which] == value
    ensures t.hints.Keys == s.hints.Keys + {which}
    ensures forall k :: k in s.hints && k != which ==> t.hints[k] == s.hints[k]
    ensures t == s.(hints := t.hints)
  {
    s.(hints := s.hints[which := value])
  }

  /** `hint(which)` with the value left to its default: the hint is set to
      `true`, no other changes. */
  function HintDefault(s: Stream, which: string): (t: Stream)
    ensures which in t.hints && t.hints[which] == Bool(true)
    ensures t.hints.Keys == s.hints.Keys + {which}
    ensures forall k :: k in s.hints && k != which ==> t.hints[k] == s.hints[k]
    ensures t == s.(hints := t.hints)
  {
    Hint(s, which, Bool(true))
  }

  /** Setting two different hints in either order gives the same stream. */
  lemma HintsCommute(s: Stream, a: string, u: Value, b: string, v: Value)
    requires a != b
    ensures Hint(Hint(s, a, u), b, v) == Hint(Hint(s, b, v), a, u)
  {
    var h := s.hints[a := u][b := v];
    assert h == s.hints[b := v][a := u];
    assert Hint(Hint(s, a, u), b, v) == s.(hints := h);
    assert Hint(Hint(s, b, v), a, u) == s.(hints := h);
  }

  // ---------------------------------------------------------------------
  // Rekeying

  /** `rekey!`: with no exchange pending, a new one is started (the caller
      then waits for it to settle, which is `SettleRekey`); otherwise
      nothing happens. */
  function Rekey(s: Stream): (t: Stream)
    ensures t.negotiator.pending
    ensures s.negotiator.pending ==> t == s
    ensures !s.negotiator.pending ==> t.negotiator.exchanges == s.negotiator.exchanges + 1
    ensures t == s.(negotiator := s.negotiator.(pending := true, exchanges := t.negotiator.exchanges))
  {
    s.(negotiator := Begin(s.negotiator))
  }

  /** `rekey_as_needed`: nothing while an exchange is pending; otherwise a
      rekey when either direction has passed its limits, after which
      neither direction asks for one. */
  function RekeyAsNeeded(s: Stream): (t: Stream)
    ensures s.negotiator.pending ==> t == s
    ensures !s.client.needsRekey && !s.reader.server.needsRekey ==> t == s
    ensures !s.negotiator.pending && (s.client.needsRekey || s.reader.server.needsRekey) ==>
              && t.negotiator.pending
              && t.negotiator.exchanges == s.negotiator.exchanges + 1
              && !t.client.needsRekey && !t.reader.server.needsRekey
  {
    if s.negotiator.pending then s else IfNeedsRekey(s, Rekey)
  }

  /** A second `rekey_as_needed` right after the first changes nothing: a
      rekey it started is still pending, or none was needed. */
  lemma RekeyAsNeededIdempotent(s: Stream)
    ensures RekeyAsNeeded(RekeyAsNeeded(s)) == RekeyAsNeeded(s)
  {
  }

  /** Starting a rekey keeps the gate consistent. */
  lemma RekeyConsistent(s: Stream)
    requires s.Consistent()
    ensures Rekey(s).Consistent() && RekeyAsNeeded(s).Consistent()
  {
  }
}

=== FILE: stream.dfy ===
/** `PacketStream`: the receive loop (`check_packet`, `process_buffer`),
    the classification of transport messages (section 11 of RFC 4253),
    the rekey gate (`queue_packet`), the pairing of ready packets with
    waiting consumers (`process_waiting`, `get_packet`) and the teardown
    (`on_close`). Waiters are identified by number instead of being futures;
    what a future would be resolved or rejected with is logged in
    `delivered` and `rejected`. */
module PacketStream {

  import opened Bytes
  import opened Results
  import opened Protocol
  import opened Framing
  import opened Deframing
  import opened Banner
  import opened Values
  import Arith

  /** `Net::SSH::Packet`: the message number is the first payload byte. */
  datatype Packet = Packet(payload: seq<byte>) {
    function Type(): Option<byte> {
      if |payload| == 0 then None else Some(payload[0])
    }
  }

  type WaiterId = nat

  /** What the stream sees of `Algorithms`: whether a key exchange is
      pending, how many were started, whether the initial one was started,
      the KEXINIT packets forwarded to it, and `Algorithms.allowed_packet?`,
      the message types that may pass while an exchange is pending. */
  datatype Negotiator = Negotiator(
    pending: bool,
    exchanges: nat,
    started: bool,
    kexinits: seq<Packet>,
    allowed: Packet -> bool)

  datatype Delivery = Delivery(waiter: WaiterId, packet: Packet)

  /** `Algorithms#start` and `send_kexinit` as the stream sees them: an
      exchange begins unless one is already pending, in which case nothing
      changes. */
  function Begin(n: Negotiator): (m: Negotiator)
    ensures m.pending
    ensures m.exchanges == if n.pending then n.exchanges else n.exchanges + 1
    ensures m == n.(pending := true, exchanges := m.exchanges)
  {
    if n.pending then n else n.(pending := true, exchanges := n.exchanges + 1)
  }

  /** `Algorithms#accept_kexinit`: the server's KEXINIT is taken, and an
      exchange begins if none was pending (an idle negotiator answers with
      its own KEXINIT). */
  function AcceptKexInit(n: Negotiator, p: Packet): (m: Negotiator)
    ensures m.pending && m.kexinits == n.kexinits + [p]
    ensures m.exchanges == if n.pending then n.exchanges else n.exchanges + 1
    ensures m.allowed == n.allowed && m.started == n.started
  {
    Begin(n).(kexinits := n.kexinits + [p])
  }

  /** Packets are held only while a release is registered, and a release
      is registered only while an exchange is pending. */
  ghost predicate GateConsistent(q: Queues, n: Negotiator) {
    && (q.held != [] ==> q.releaseArmed)
    && (q.releaseArmed ==> n.pending)
  }

  /** `@close_error || 'connection closed'`. */
  datatype CloseReason = ConnectionClosed | Failed(error: Error)

  datatype Rejection = Rejection(waiter: WaiterId, reason: CloseReason)

  /** The received packets not yet consumed: `ready` is `@packets`, `held`
      is `@pending_packets`, and `releaseArmed` says whether
      `@process_pending` is set, that is whether a release of `held` is
      registered on the pending exchange. */
  datatype Queues = Queues(ready: seq<Packet>, held: seq<Packet>, releaseArmed: bool)

  /** The stream's state; `awaiting` is `@awaiting`. */
  datatype Stream = Stream(
    reader: Reader,
    client: Direction,
    haveHeader: bool,
    serverVersion: Option<ServerVersion>,
    queues: Queues,
    awaiting: seq<WaiterId>,
    negotiator: Negotiator,
    hints: map<string, Value>,
    delivered: seq<Delivery>,
    rejected: seq<Rejection>)
  {
    predicate Valid() {
      reader.server.Valid() && client.Valid()
    }

    /** The rekey gate is consistent, as `GateConsistent` says. */
    ghost predicate Consistent() {
      GateConsistent(queues, negotiator)
    }
  }

  /** The dispatch classes of `process_buffer`. */
  datatype Kind = Disconnect | Ignore | Unimplemented | Debug | KexInit | Other

  function Classify(p: Packet): (k: Kind)
    ensures k.Disconnect? <==> p.Type() == Some(DISCONNECT)
    ensures k.KexInit? <==> p.Type() == Some(KEXINIT)
    ensures k.Other? <==> p.Type() !in {Some(DISCONNECT), Some(IGNORE), Some(UNIMPLEMENTED), Some(DEBUG), Some(KEXINIT)}
  {
    match p.Type()
    case None => Other
    case Some(t) =>
      if t == DISCONNECT then Disconnect
      else if t == IGNORE then Ignore
      else if t == UNIMPLEMENTED then Unimplemented
      else if t == DEBUG then Debug
      else if t == KEXINIT then KexInit
      else Other
  }

  // ---------------------------------------------------------------------
  // Serving waiters

  /** The outcome of pairing ready packets with waiters. */
  datatype Served = Served(ready: seq<Packet>, awaiting: seq<WaiterId>, deliveries: seq<Delivery>)

  function Min(a: nat, b: nat): nat {
    if a <= b then a else b
  }

  function PacketsOf(ds: seq<Delivery>): (ps: seq<Packet>)
    ensures |ps| == |ds| && forall i :: 0 <= i < |ds| ==> ps[i] == ds[i].packet
  {
    seq(|ds|, i requires 0 <= i < |ds| => ds[i].packet)
  }

  function WaitersOf(ds: seq<Delivery>): (ws: seq<WaiterId>)
    ensures |ws| == |ds| && forall i :: 0 <= i < |ds| ==> ws[i] == ds[i].waiter
  {
    seq(|ds|, i requires 0 <= i < |ds| => ds[i].waiter)
  }

  /** The loop of `process_waiting`: while a packet is ready and someone
      waits, the first waiter gets the first packet. The i-th waiter gets the
      i-th packet, and when it stops one of the two queues is empty. */
  function ServeWaiters(ready: seq<Packet>, awaiting: seq<WaiterId>): (r: Served)
    ensures var k := Min(|ready|, |awaiting|);
            && |r.deliveries| == k
            && (forall i :: 0 <= i < k ==> r.deliveries[i] == Delivery(awaiting[i], ready[i]))
            && r.ready == ready[k..]
            && r.awaiting == awaiting[k..]
    ensures r.ready == [] || r.awaiting == []
    decreases |ready|
  {
    if |ready| == 0 || |awaiting| == 0 then Served(ready, awaiting, [])
    else
      var rest := ServeWaiters(ready[1..], awaiting[1..]);
      Served(rest.ready, rest.awaiting, [Delivery(awaiting[0], ready[0])] + rest.deliveries)
  }

  /** Serving loses and reorders nothing: the packets handed out followed by
      those still ready are the packets that were ready, and likewise for
      the waiters. */
  lemma ServeConserves(ready: seq<Packet>, awaiting: seq<WaiterId>)
    ensures var r := ServeWaiters(ready, awaiting);
            && PacketsOf(r.deliveries) + r.ready == ready
            && WaitersOf(r.deliveries) + r.awaiting == awaiting
  {
    var r := ServeWaiters(ready, awaiting);
    var k := Min(|ready|, |awaiting|);
    assert PacketsOf(r.deliveries) == ready[..k];
    assert WaitersOf(r.deliveries) == awaiting[..k];
    assert ready[..k] + ready[k..] == ready;
    assert awaiting[..k] + awaiting[k..] == awaiting;
  }

  /** `process_waiting`: the ready packets go to the waiters, first to
      first. */
  function ProcessWaiting(s: Stream): (t: Stream)
    ensures t.queues.ready == [] || t.awaiting == []
    ensures |t.delivered| >= |s.delivered| && t.delivered[..|s.delivered|] == s.delivered
    ensures PacketsOf(t.delivered[|s.delivered|..]) + t.queues.ready == s.queues.ready
    ensures WaitersOf(t.delivered[|s.delivered|..]) + t.awaiting == s.awaiting
    ensures t == s.(queues := s.queues.(ready := t.queues.ready), awaiting := t.awaiting, delivered := t.delivered)
  {
    var sv := ServeWaiters(s.queues.ready, s.awaiting);
    ServeConserves(s.queues.ready, s.awaiting);
    var t := s.(queues := s.queues.(ready := sv.ready), awaiting := sv.awaiting, delivered := s.delivered + sv.deliveries);
    assert t.delivered[|s.delivered|..] == sv.deliveries;
    t
  }

  // ---------------------------------------------------------------------
  // The rekey gate

  /** `queue_packet`: with no exchange pending, or for a packet the
      negotiator allows during one, the packet joins the ready queue;
      otherwise it is held and a release is registered on the exchange. */
  function QueuePacket(n: Negotiator, q: Queues, p: Packet): (r: Queues)
    ensures |r.ready| + |r.held| == |q.ready| + |q.held| + 1
    ensures r.ready == q.ready + [p] <==> !n.pending || n.allowed(p)
    ensures r.held == q.held + [p] <==> n.pending && !n.allowed(p)
    ensures r.ready == q.ready || r.held == q.held
    ensures r.releaseArmed == (q.releaseArmed || r.held != q.held)
  {
    if !n.pending || n.allowed(p) then q.(ready := q.ready + [p])
    else q.(held := q.held + [p], releaseArmed := true)
  }

  /** The pending exchange settles (resolved or rejected): the negotiator is
      idle again and, if a release was registered, the held packets follow
      the ready ones in arrival order, the hold is emptied and the waiters
      are served. */
  function SettleRekey(s: Stream): (t: Stream)
    requires s.Consistent()
    ensures !t.negotiator.pending && t.queues.held == [] && !t.queues.releaseArmed
    ensures t.negotiator == s.negotiator.(pending := false)
    ensures |t.delivered| >= |s.delivered| && t.delivered[..|s.delivered|] == s.delivered
    ensures PacketsOf(t.delivered[|s.delivered|..]) + t.queues.ready == s.queues.ready + s.queues.held
    ensures WaitersOf(t.delivered[|s.delivered|..]) + t.awaiting == s.awaiting
    ensures t.rejected == s.rejected
  {
    var idle := s.(negotiator := s.negotiator.(pending := false));
    if s.queues.releaseArmed then
      ProcessWaiting(idle.(queues := Queues(idle.queues.ready + idle.queues.held, [], false)))
    else
      assert idle.delivered[|s.delivered|..] == [];
      idle
  }

  /** Only packets of the given polarity under `keep`, in order. */
  function Filter(keep: Packet -> bool, want: bool, ps: seq<Packet>): (r: seq<Packet>)
    ensures |r| <= |ps|
    ensures forall i :: 0 <= i < |r| ==> keep(r[i]) == want
    decreases |ps|
  {
    if |ps| == 0 then []
    else (if keep(ps[0]) == want then [ps[0]] else []) + Filter(keep, want, ps[1..])
  }

  lemma {:induction false} FilterAppend(keep: Packet -> bool, want: bool, a: seq<Packet>, b: seq<Packet>)
    ensures Filter(keep, want, a + b) == Filter(keep, want, a) + Filter(keep, want, b)
    decreases |a|
  {
    if |a| > 0 {
      FilterAppend(keep, want, a[1..], b);
      assert (a + b)[1..] == a[1..] + b;
    } else {
      assert a + b == b;
    }
  }

  // ---------------------------------------------------------------------
  // Dispatch

  /** The state of `process_buffer`'s dispatch loop: the queues, the
      negotiator as the packets so far have left it, and the exception that
      stopped the loop. */
  datatype Dispatched = Dispatched(queues: Queues, negotiator: Negotiator, error: Option<Error>)

  /** One packet of the dispatch loop, gated by the negotiator as it stands
      when the packet's turn comes. */
  function DispatchPacket(d: Dispatched, p: Packet): Dispatched
  {
    match Classify(p)
    case Disconnect => d.(error := Some(Disconnected))
    case Ignore => d
    case Unimplemented => d
    case Debug => d
    case KexInit => d.(negotiator := AcceptKexInit(d.negotiator, p))
    case Other => d.(queues := QueuePacket(d.negotiator, d.queues, p))
  }

  /** The dispatch loop over the extracted packets, stopping at the first
      exception. The negotiator's predicate and `started` never change, a
      pending exchange stays pending and is not counted again, and the
      KEXINIT log only grows. */
  function DispatchAll(d: Dispatched, ps: seq<Packet>): (r: Dispatched)
    requires d.error.None?
    ensures r.negotiator.allowed == d.negotiator.allowed && r.negotiator.started == d.negotiator.started
    ensures d.negotiator.pending ==> r.negotiator.pending && r.negotiator.exchanges == d.negotiator.exchanges
    ensures |r.negotiator.kexinits| >= |d.negotiator.kexinits|
            && r.negotiator.kexinits[..|d.negotiator.kexinits|] == d.negotiator.kexinits
    decreases |ps|
  {
    if |ps| == 0 then d
    else
      var d1 := DispatchPacket(d, ps[0]);
      if d1.error.Some? then d1 else DispatchAll(d1, ps[1..])
  }

  /** What one packet contributes to the queues: itself when it is not a
      control message. */
  function DataOne(p: Packet): seq<Packet> {
    if Classify(p).Other? then [p] else []
  }

  function KexInitOne(p: Packet): seq<Packet> {
    if Classify(p).KexInit? then [p] else []
  }

  /** The packets that reach the queues (not control messages). */
  function DataOf(ps: seq<Packet>): (r: seq<Packet>)
    ensures forall i :: 0 <= i < |r| ==> Classify(r[i]).Other?
    decreases |ps|
  {
    if |ps| == 0 then [] else DataOne(ps[0]) + DataOf(ps[1..])
  }

  lemma {:induction false} DataOfAppend(a: seq<Packet>, b: seq<Packet>)
    ensures DataOf(a + b) == DataOf(a) + DataOf(b)
    decreases |a|
  {
    if |a| > 0 {
      DataOfAppend(a[1..], b);
      assert (a + b)[1..] == a[1..] + b;
    } else {
      assert a + b == b;
    }
  }

  /** The KEXINIT packets, forwarded to the negotiator. */
  function KexInitsOf(ps: seq<Packet>): (r: seq<Packet>)
    ensures forall i :: 0 <= i < |r| ==> Classify(r[i]).KexInit?
    decreases |ps|
  {
    if |ps| == 0 then [] else KexInitOne(ps[0]) + KexInitsOf(ps[1..])
  }

  /** The position of the first KEXINIT, or the length when there is none. */
  function FirstKexInit(ps: seq<Packet>): (j: nat)
    ensures j <= |ps|
    ensures forall i :: 0 <= i < j ==> !Classify(ps[i]).KexInit?
    ensures j < |ps| ==> Classify(ps[j]).KexInit?
    decreases |ps|
  {
    if |ps| == 0 then 0
    else if Classify(ps[0]).KexInit? then 0
    else FirstKexInit(ps[1..]) + 1
  }

  ghost predicate HasDisconnect(ps: seq<Packet>) {
    exists i :: 0 <= i < |ps| && Classify(ps[i]).Disconnect?
  }

  /** Dispatching a batch raises exactly when it holds a DISCONNECT. */
  lemma {:induction false} DispatchRaisesOnDisconnect(d: Dispatched, ps: seq<Packet>)
    requires d.error.None?
    ensures DispatchAll(d, ps).error.Some? <==> HasDisconnect(ps)
    ensures DispatchAll(d, ps).error.Some? ==> DispatchAll(d, ps).error == Some(Disconnected)
    decreases |ps|
  {
    if |ps| > 0 {
      var d1 := DispatchPacket(d, ps[0]);
      if d1.error.None? {
        DispatchRaisesOnDisconnect(d1, ps[1..]);
        if HasDisconnect(ps[1..]) {
          var i :| 0 <= i < |ps[1..]| && Classify(ps[1..][i]).Disconnect?;
          assert Classify(ps[i + 1]).Disconnect?;
        }
        if HasDisconnect(ps) {
          var i :| 0 <= i < |ps| && Classify(ps[i]).Disconnect?;
          assert i > 0 && Classify(ps[1..][i - 1]).Disconnect?;
        }
      }
    }
  }

  /** Data packets passing the gate with no per-packet loop: all of them in
      order to the ready queue when no exchange is pending, else the allowed
      ones to the ready queue and the rest to the hold. */
  function Gated(pending: bool, allowed: Packet -> bool, q: Queues, data: seq<Packet>): Queues {
    if !pending then q.(ready := q.ready + data)
    else
      var held := Filter(allowed, false, data);
      Queues(q.ready + Filter(allowed, true, data), q.held + held, q.releaseArmed || held != [])
  }

  /** A batch without DISCONNECT as a whole: the data packets before the
      first KEXINIT meet the gate as the negotiator stood, and those after
      it meet a pending exchange, since the KEXINIT began one if none was
      pending. */
  function GatedBatch(n: Negotiator, q: Queues, ps: seq<Packet>): Queues {
    var j := FirstKexInit(ps);
    if j == |ps| then Gated(n.pending, n.allowed, q, DataOf(ps))
    else Gated(true, n.allowed, Gated(n.pending, n.allowed, q, DataOf(ps[..j])), DataOf(ps[j + 1..]))
  }

  /** The negotiator after a batch without DISCONNECT: unchanged when it held
      no KEXINIT; otherwise an exchange is pending (begun by the first
      KEXINIT if none was) and every KEXINIT was taken, in order. */
  function Accepted(n: Negotiator, ps: seq<Packet>): Negotiator {
    if KexInitsOf(ps) == [] then n else Begin(n).(kexinits := n.kexinits + KexInitsOf(ps))
  }

  /** A batch without DISCONNECT: control messages are consumed, KEXINITs go
      to the negotiator in order, and the other packets pass the rekey gate
      in arrival order, as `GatedBatch` and `Accepted` describe. */
  lemma {:induction false} DispatchGates(d: Dispatched, ps: seq<Packet>)
    requires d.error.None? && !HasDisconnect(ps)
    ensures DispatchAll(d, ps) == Dispatched(GatedBatch(d.negotiator, d.queues, ps), Accepted(d.negotiator, ps), None)
    decreases |ps|
  {
    if |ps| > 0 {
      var p, rest := ps[0], ps[1..];
      NoDisconnectTail(ps);
      var d1 := DispatchPacket(d, p);
      assert d1.error.None?;
      assert DispatchAll(d, ps) == DispatchAll(d1, rest);
      DispatchGates(d1, rest);
      if Classify(p).KexInit? {
        KexInitStep(d, ps);
      } else {
        OtherStep(d, ps);
      }
    }
  }

  /** The inductive step of `DispatchGates` for a leading KEXINIT. */
  lemma KexInitStep(d: Dispatched, ps: seq<Packet>)
    requires d.error.None? && |ps| > 0 && Classify(ps[0]).KexInit?
    ensures var d1 := DispatchPacket(d, ps[0]);
            && d1 == Dispatched(d.queues, AcceptKexInit(d.negotiator, ps[0]), None)
            && GatedBatch(d1.negotiator, d1.queues, ps[1..]) == GatedBatch(d.negotiator, d.queues, ps)
            && Accepted(d1.negotiator, ps[1..]) == Accepted(d.negotiator, ps)
  {
    KexInitGates(d.negotiator, d.queues, ps);
    KexInitAccepted(d.negotiator, ps);
  }

  lemma KexInitGates(n: Negotiator, q: Queues, ps: seq<Packet>)
    requires |ps| > 0 && Classify(ps[0]).KexInit?
    ensures GatedBatch(AcceptKexInit(n, ps[0]), q, ps[1..]) == GatedBatch(n, q, ps)
  {
    var n1 := AcceptKexInit(n, ps[0]);
    BatchWhilePending(n1, q, ps[1..]);
    KexInitFirst(n, q, ps);
  }

  lemma KexInitAccepted(n: Negotiator, ps: seq<Packet>)
    requires |ps| > 0 && Classify(ps[0]).KexInit?
    ensures Accepted(AcceptKexInit(n, ps[0]), ps[1..]) == Accepted(n, ps)
  {
    var p, rest := ps[0], ps[1..];
    var n1 := AcceptKexInit(n, p);
    var k := KexInitsOf(rest);
    assert KexInitsOf(ps) == [p] + k;
    if k == [] {
      assert n.kexinits + [p] + k == n.kexinits + [p];
    } else {
      assert Begin(n1) == n1;
      assert n.kexinits + [p] + k == n.kexinits + ([p] + k);
    }
  }

  /** The inductive step of `DispatchGates` for a leading packet that is
      neither DISCONNECT nor KEXINIT. */
  lemma OtherStep(d: Dispatched, ps: seq<Packet>)
    requires d.error.None? && |ps| > 0 && !Classify(ps[0]).KexInit? && !Classify(ps[0]).Disconnect?
    ensures var d1 := DispatchPacket(d, ps[0]);
            && d1.negotiator == d.negotiator && d1.error.None?
            && GatedBatch(d1.negotiator, d1.queues, ps[1..]) == GatedBatch(d.negotiator, d.queues, ps)
            && Accepted(d1.negotiator, ps[1..]) == Accepted(d.negotiator, ps)
  {
    var p, rest := ps[0], ps[1..];
    GateOne(d, p);
    GatedBatchStep(d.negotiator, d.queues, p, rest);
    assert [p] + rest == ps;
    assert KexInitsOf(ps) == KexInitsOf(rest);
  }

  lemma NoDisconnectTail(ps: seq<Packet>)
    requires |ps| > 0 && !HasDisconnect(ps)
    ensures !Classify(ps[0]).Disconnect? && !HasDisconnect(ps[1..])
  {
  }

  /** One packet that is neither DISCONNECT nor KEXINIT, as `Gated` describes. */
  lemma GateOne(d: Dispatched, p: Packet)
    requires d.error.None? && !Classify(p).Disconnect? && !Classify(p).KexInit?
    ensures DispatchPacket(d, p) == Dispatched(Gated(d.negotiator.pending, d.negotiator.allowed, d.queues, DataOne(p)), d.negotiator, None)
  {
    assert Filter(d.negotiator.allowed, true, [p]) == if d.negotiator.allowed(p) then [p] else [];
    assert Filter(d.negotiator.allowed, false, [p]) == if !d.negotiator.allowed(p) then [p] else [];
  }

  /** Gating two batches one after the other is gating them together. */
  lemma GatedAppend(pending: bool, allowed: Packet -> bool, q: Queues, a: seq<Packet>, b: seq<Packet>)
    ensures Gated(pending, allowed, Gated(pending, allowed, q, a), b) == Gated(pending, allowed, q, a + b)
  {
    if pending {
      var ra, rb := Filter(allowed, true, a), Filter(allowed, true, b);
      var ha, hb := Filter(allowed, false, a), Filter(allowed, false, b);
      FilterAppend(allowed, true, a, b);
      FilterAppend(allowed, false, a, b);
      assert q.ready + ra + rb == q.ready + (ra + rb);
      assert q.held + ha + hb == q.held + (ha + hb);
      assert (ha + hb != []) == (ha != [] || hb != []) by {
        assert |ha + hb| == |ha| + |hb|;
      }
    } else {
      assert q.ready + a + b == q.ready + (a + b);
    }
  }

  /** Gating nothing changes nothing. */
  lemma GatedNothing(pending: bool, allowed: Packet -> bool, q: Queues)
    ensures Gated(pending, allowed, q, []) == q
  {
    assert Filter(allowed, false, []) == [] && Filter(allowed, true, []) == [];
    assert q.ready + [] == q.ready && q.held + [] == q.held;
  }

  /** While an exchange is pending, the whole batch meets the pending gate. */
  lemma BatchWhilePending(n: Negotiator, q: Queues, ps: seq<Packet>)
    requires n.pending
    ensures GatedBatch(n, q, ps) == Gated(true, n.allowed, q, DataOf(ps))
  {
    var j := FirstKexInit(ps);
    if j < |ps| {
      var before, after := ps[..j], ps[j + 1..];
      assert ps == before + ([ps[j]] + after);
      DataOfAppend(before, [ps[j]] + after);
      assert DataOf([ps[j]] + after) == DataOf(after) by {
        assert ([ps[j]] + after)[1..] == after;
      }
      GatedAppend(true, n.allowed, q, DataOf(before), DataOf(after));
    }
  }

  /** A batch that opens with a KEXINIT meets the pending gate throughout. */
  lemma KexInitFirst(n: Negotiator, q: Queues, ps: seq<Packet>)
    requires |ps| > 0 && Classify(ps[0]).KexInit?
    ensures GatedBatch(n, q, ps) == Gated(true, n.allowed, q, DataOf(ps[1..]))
  {
    assert FirstKexInit(ps) == 0;
    assert DataOf(ps[..0]) == [];
    GatedNothing(n.pending, n.allowed, q);
  }

  /** A leading packet that is neither DISCONNECT nor KEXINIT meets the gate
      as the negotiator stands, ahead of the rest of the batch. */
  lemma GatedBatchStep(n: Negotiator, q: Queues, p: Packet, rest: seq<Packet>)
    requires !Classify(p).KexInit?
    ensures GatedBatch(n, Gated(n.pending, n.allowed, q, DataOne(p)), rest) == GatedBatch(n, q, [p] + rest)
  {
    var ps := [p] + rest;
    assert ps[1..] == rest;
    var j := FirstKexInit(rest);
    assert FirstKexInit(ps) == j + 1;
    if j == |rest| {
      assert DataOf(ps) == DataOne(p) + DataOf(rest);
      GatedAppend(n.pending, n.allowed, q, DataOne(p), DataOf(rest));
    } else {
      assert ps[..j + 1][1..] == rest[..j];
      assert DataOf(ps[..j + 1]) == DataOne(p) + DataOf(rest[..j]);
      assert ps[j + 2..] == rest[j + 1..];
      GatedAppend(n.pending, n.allowed, q, DataOne(p), DataOf(rest[..j]));
    }
  }

  /** Dispatch keeps the gate consistent: a packet is only held while an
      exchange is pending, and holding it registers the release. */
  lemma {:induction false} DispatchConsistent(d: Dispatched, ps: seq<Packet>)
    requires d.error.None?
    ensures GateConsistent(d.queues, d.negotiator) ==>
              GateConsistent(DispatchAll(d, ps).queues, DispatchAll(d, ps).negotiator)
    decreases |ps|
  {
    if |ps| > 0 {
      var d1 := DispatchPacket(d, ps[0]);
      if d1.error.None? {
        DispatchConsistent(d1, ps[1..]);
      }
    }
  }

  // ---------------------------------------------------------------------
  // Extraction and the receive loop

  /** The extraction loop of `process_buffer`: every packet the input holds,
      in order, until `next_packet` gives `nil`. At the end no further
      packet can be taken without new input. */
  function ExtractAll(rd: Reader): (r: Result<(seq<Packet>, Reader), Error>)
    requires rd.server.Valid()
    ensures NextPacket(rd).Err? ==> r == Err(NextPacket(rd).error)
    ensures NextPacket(rd).Ok? && NextPacket(rd).value.packet.None? ==> r == Ok(([], NextPacket(rd).value.reader))
    ensures NextPacket(rd).Ok? && NextPacket(rd).value.packet.Some? && r.Ok? ==>
              |r.value.0| > 0 && r.value.0[0] == Packet(NextPacket(rd).value.packet.value)
    ensures r.Ok? ==> r.value.1.server.Valid() && NextPacket(r.value.1) == Ok(Step(None, r.value.1))
    decreases |rd.input|, if rd.partial.Some? then 1 else 0
  {
    match NextPacket(rd)
    case Err(e) => Err(e)
    case Ok(step) =>
      match step.packet
      case None =>
        WaitingIsStable(rd);
        Ok(([], step.reader))
      case Some(payload) =>
        match ExtractAll(step.reader)
        case Err(e) => Err(e)
        case Ok(more) => Ok(([Packet(payload)] + more.0, more.1))
  }

  /** The packets carrying the given payloads, in order. */
  function PacketsFrom(payloads: seq<seq<byte>>): (ps: seq<Packet>)
    ensures |ps| == |payloads| && forall i :: 0 <= i < |ps| ==> ps[i] == Packet(payloads[i])
  {
    seq(|payloads|, i requires 0 <= i < |payloads| => Packet(payloads[i]))
  }

  /** Everything consecutive `enqueue_packet` calls wrote, followed by less
      than a first block, is extracted by the receive loop: every payload,
      in order, with the incomplete tail kept as unread input and the
      sequence number moved on once per packet. */
  lemma ExtractsEverySent(c: Direction, s: Direction, payloads: seq<seq<byte>>,
                          randoms: seq<nat -> byte>, tail: seq<byte>)
    requires c.Valid() && s.Valid() && Matching(c, s)
    requires 4 <= c.blockSize <= 126
    requires |randoms| == |payloads|
    requires forall i :: 0 <= i < |payloads| ==> |c.compressor(payloads[i])| + 2 * c.blockSize + 4 < TWO_32
    requires |tail| < FirstBlock(s.blockSize)
    ensures ExtractAll(Reader(EnqueueAll(c, payloads, randoms).message + tail, None, s))
            == Ok((PacketsFrom(payloads), Reader(tail, None, s.(sequenceNumber := (s.sequenceNumber + |payloads|) % TWO_32))))
  {
    var rd := Reader(EnqueueAll(c, payloads, randoms).message + tail, None, s);
    var last := Reader(tail, None, s.(sequenceNumber := (s.sequenceNumber + |payloads|) % TWO_32));
    SentChain(c, s, payloads, randoms, tail);
    ChainExtracts(rd, payloads, last);
  }

  /** `rd` yields the payloads one by one, then nothing, ending at `last`. */
  ghost predicate Chain(rd: Reader, payloads: seq<seq<byte>>, last: Reader)
    decreases |payloads|
  {
    && rd.server.Valid()
    && if |payloads| == 0 then rd == last && NextPacket(rd) == Ok(Step(None, rd))
       else
         && NextPacket(rd).Ok?
         && NextPacket(rd).value.packet == Some(payloads[0])
         && Chain(NextPacket(rd).value.reader, payloads[1..], last)
  }

  /** The extraction loop collects what a chain of calls yields. */
  lemma {:induction false} ChainExtracts(rd: Reader, payloads: seq<seq<byte>>, last: Reader)
    requires Chain(rd, payloads, last)
    ensures ExtractAll(rd) == Ok((PacketsFrom(payloads), last))
    decreases |payloads|
  {
    if |payloads| > 0 {
      var next := NextPacket(rd).value.reader;
      ChainExtracts(next, payloads[1..], last);
      PacketsFromCons(payloads);
      ExtractStep(rd, payloads[0], next, PacketsFrom(payloads[1..]), last);
    } else {
      assert PacketsFrom(payloads) == [];
    }
  }

  lemma PacketsFromCons(payloads: seq<seq<byte>>)
    requires |payloads| > 0
    ensures PacketsFrom(payloads) == [Packet(payloads[0])] + PacketsFrom(payloads[1..])
  {
  }

  /** One packet taken, then the rest extracted. */
  lemma ExtractStep(rd: Reader, p: seq<byte>, next: Reader, more: seq<Packet>, last: Reader)
    requires rd.server.Valid()
    requires NextPacket(rd) == Ok(Step(Some(p), next))
    requires next.server.Valid() && ExtractAll(next) == Ok((more, last))
    ensures ExtractAll(rd) == Ok(([Packet(p)] + more, last))
  {
  }

  /** The messages consecutive calls wrote form such a chain. */
  lemma SentChain(c: Direction, s: Direction, payloads: seq<seq<byte>>,
                   randoms: seq<nat -> byte>, tail: seq<byte>)
    requires c.Valid() && s.Valid() && Matching(c, s)
    requires 4 <= c.blockSize <= 126
    requires |randoms| == |payloads|
    requires forall i :: 0 <= i < |payloads| ==> |c.compressor(payloads[i])| + 2 * c.blockSize + 4 < TWO_32
    requires |tail| < FirstBlock(s.blockSize)
    ensures Chain(Reader(EnqueueAll(c, payloads, randoms).message + tail, None, s), payloads,
                  Reader(tail, None, s.(sequenceNumber := (s.sequenceNumber + |payloads|) % TWO_32)))
  {
    var n := |payloads|;
    var readers := seq(n + 1, i requires 0 <= i <= n => SentReader(c, s, payloads, randoms, tail, i));
    SentSteps(c, s, payloads, randoms, tail, readers);
    SentEnds(c, s, payloads, randoms, tail);
    SentReaderStart(c, s, payloads, randoms, tail);
    ChainFrom(readers, payloads, 0);
  }

  lemma SentSteps(c: Direction, s: Direction, payloads: seq<seq<byte>>,
                  randoms: seq<nat -> byte>, tail: seq<byte>, readers: seq<Reader>)
    requires c.Valid() && s.Valid() && Matching(c, s)
    requires 4 <= c.blockSize <= 126
    requires |randoms| == |payloads|
    requires forall i :: 0 <= i < |payloads| ==> |c.compressor(payloads[i])| + 2 * c.blockSize + 4 < TWO_32
    requires |readers| == |payloads| + 1
    requires forall i :: 0 <= i < |readers| ==> readers[i] == SentReader(c, s, payloads, randoms, tail, i)
    requires forall i :: 0 <= i < |readers| ==> readers[i].server.Valid()
    ensures forall i :: 0 <= i < |payloads| ==> NextPacket(readers[i]) == Ok(Step(Some(payloads[i]), readers[i + 1]))
  {
    forall i | 0 <= i < |payloads|
      ensures NextPacket(readers[i]) == Ok(Step(Some(payloads[i]), readers[i + 1]))
    {
      SentStep(c, s, payloads, randoms, tail, i);
    }
  }

  /** Past the last sent packet only the short tail is left, and it yields nothing. */
  lemma SentEnds(c: Direction, s: Direction, payloads: seq<seq<byte>>,
                 randoms: seq<nat -> byte>, tail: seq<byte>)
    requires c.Valid() && s.Valid() && |randoms| == |payloads|
    requires |tail| < FirstBlock(s.blockSize)
    ensures var last := SentReader(c, s, payloads, randoms, tail, |payloads|);
            && last == Reader(tail, None, s.(sequenceNumber := (s.sequenceNumber + |payloads|) % TWO_32))
            && NextPacket(last) == Ok(Step(None, last))
  {
    var n := |payloads|;
    assert payloads[n..] == [] && randoms[n..] == [];
  }

  /** The reader left after the first `i` of the sent packets. */
  function SentReader(c: Direction, s: Direction, payloads: seq<seq<byte>>,
                      randoms: seq<nat -> byte>, tail: seq<byte>, i: nat): (r: Reader)
    requires c.Valid() && s.Valid() && |randoms| == |payloads| && i <= |payloads|
    ensures r.server == Advance(s, i)
  {
    Reader(EnqueueAll(Advance(c, i), payloads[i..], randoms[i..]).message + tail, None, Advance(s, i))
  }

  lemma SentReaderStart(c: Direction, s: Direction, payloads: seq<seq<byte>>,
                        randoms: seq<nat -> byte>, tail: seq<byte>)
    requires c.Valid() && s.Valid() && |randoms| == |payloads|
    ensures SentReader(c, s, payloads, randoms, tail, 0) == Reader(EnqueueAll(c, payloads, randoms).message + tail, None, s)
  {
    AdvanceZero(c);
    AdvanceZero(s);
    assert payloads[0..] == payloads && randoms[0..] == randoms;
  }

  lemma AdvanceZero(d: Direction)
    requires d.Valid()
    ensures Advance(d, 0) == d
  {
  }

  /** A direction after `n` more packets. */
  function Advance(d: Direction, n: nat): (r: Direction)
    requires d.Valid()
    ensures r.Valid() && r.(sequenceNumber := d.sequenceNumber) == d
  {
    d.(sequenceNumber := (d.sequenceNumber + n) % TWO_32)
  }

  lemma AdvanceStep(d: Direction, n: nat)
    requires d.Valid()
    ensures Advance(d, n).Increment() == Advance(d, n + 1)
  {
    var x := d.sequenceNumber + n;
    assert (x % TWO_32 + 1) % TWO_32 == (x + 1) % TWO_32 by {
      Arith.ModUnique(x + 1, TWO_32, x / TWO_32 + (x % TWO_32 + 1) / TWO_32, (x % TWO_32 + 1) % TWO_32);
    }
  }

  /** The `i`-th sent packet decodes from where the earlier ones left off. */
  lemma SentStep(c: Direction, s: Direction, payloads: seq<seq<byte>>,
                 randoms: seq<nat -> byte>, tail: seq<byte>, i: nat)
    requires c.Valid() && s.Valid() && Matching(c, s)
    requires 4 <= c.blockSize <= 126
    requires |randoms| == |payloads| && i < |payloads|
    requires forall i :: 0 <= i < |payloads| ==> |c.compressor(payloads[i])| + 2 * c.blockSize + 4 < TWO_32
    ensures NextPacket(SentReader(c, s, payloads, randoms, tail, i))
            == Ok(Step(Some(payloads[i]), SentReader(c, s, payloads, randoms, tail, i + 1)))
  {
    var ci, si := Advance(c, i), Advance(s, i);
    AdvanceStep(c, i);
    AdvanceStep(s, i);
    assert payloads[i..][0] == payloads[i];
    assert payloads[i..][1..] == payloads[i + 1..];
    assert randoms[i..][1..] == randoms[i + 1..];
    assert Matching(ci, si);
    FirstSentDecodes(ci, si, payloads[i..], randoms[i..], tail);
  }

  /** A run of readers, each stepping to the next with one payload and the
      last stepping to itself with none, forms a chain from any of them. */
  lemma {:induction false} ChainFrom(readers: seq<Reader>, payloads: seq<seq<byte>>, k: nat)
    requires |readers| == |payloads| + 1 && k <= |payloads|
    requires forall i :: 0 <= i < |readers| ==> readers[i].server.Valid()
    requires forall i :: 0 <= i < |payloads| ==> NextPacket(readers[i]) == Ok(Step(Some(payloads[i]), readers[i + 1]))
    requires NextPacket(readers[|payloads|]) == Ok(Step(None, readers[|payloads|]))
    ensures Chain(readers[k], payloads[k..], readers[|payloads|])
    decreases |payloads| - k
  {
    if k < |payloads| {
      ChainFrom(readers, payloads, k + 1);
      assert payloads[k..][0] == payloads[k];
      assert payloads[k..][1..] == payloads[k + 1..];
      ChainStep(readers[k], payloads[k..], readers[k + 1], readers[|payloads|], readers[|payloads|]);
    } else {
      assert payloads[k..] == [];
    }
  }

  lemma ChainStep(rd: Reader, payloads: seq<seq<byte>>, next: Reader, last1: Reader, last: Reader)
    requires rd.server.Valid() && |payloads| > 0
    requires NextPacket(rd) == Ok(Step(Some(payloads[0]), next))
    requires Chain(next, payloads[1..], last1) && last1 == last
    ensures Chain(rd, payloads, last)
  {
  }

  /** The first message decodes to the first payload and leaves the others. */
  lemma FirstSentDecodes(c: Direction, s: Direction, payloads: seq<seq<byte>>, randoms: seq<nat -> byte>, tail: seq<byte>)
    requires c.Valid() && s.Valid() && Matching(c, s)
    requires 4 <= c.blockSize <= 126
    requires |randoms| == |payloads| > 0
    requires |c.compressor(payloads[0])| + 2 * c.blockSize + 4 < TWO_32
    ensures NextPacket(Reader(EnqueueAll(c, payloads, randoms).message + tail, None, s))
            == Ok(Step(Some(payloads[0]), Reader(EnqueueAll(c.Increment(), payloads[1..], randoms[1..]).message + tail, None, s.Increment())))
  {
    var e := EnqueuePacket(c, payloads[0], randoms[0]);
    var rest := EnqueueAll(e.client, payloads[1..], randoms[1..]).message + tail;
    SentSplits(c, payloads, randoms, tail);
    RoundTrip(c, s, payloads[0], randoms[0], rest);
  }

  /** The messages of several calls are the first call's message followed by
      the rest. */
  lemma SentSplits(c: Direction, payloads: seq<seq<byte>>, randoms: seq<nat -> byte>, tail: seq<byte>)
    requires c.Valid() && |randoms| == |payloads| > 0
    ensures var e := EnqueuePacket(c, payloads[0], randoms[0]);
            EnqueueAll(c, payloads, randoms).message + tail
            == e.message + (EnqueueAll(e.client, payloads[1..], randoms[1..]).message + tail)
  {
  }

  /** Where a call stopped: the stream as it stands and the exception it
      raised, if any. */
  datatype Outcome = Outcome(stream: Stream, error: Option<Error>)

  /** What dispatching leaves of the negotiator: the same allowed packets and
      `started`, and a pending exchange neither settled nor counted again. */
  ghost predicate NegotiatorFollows(n: Negotiator, m: Negotiator) {
    && m.allowed == n.allowed
    && m.started == n.started
    && (n.pending ==> m.pending && m.exchanges == n.exchanges)
  }

  /** `process_buffer`: extract everything, dispatch it, serve the waiters. */
  function ProcessBuffer(s: Stream): (o: Outcome)
    requires s.Valid()
    ensures ExtractAll(s.reader).Err? ==> o == Outcome(s, Some(ExtractAll(s.reader).error))
    ensures ExtractAll(s.reader).Ok? ==>
              o == DispatchBatch(s.(reader := ExtractAll(s.reader).value.1), ExtractAll(s.reader).value.0)
    ensures s.Consistent() ==> o.stream.Consistent()
    ensures NegotiatorFollows(s.negotiator, o.stream.negotiator)
    ensures o.stream.haveHeader == s.haveHeader && o.stream.serverVersion == s.serverVersion
    ensures o.stream.rejected == s.rejected
  {
    match ExtractAll(s.reader)
    case Err(e) => Outcome(s, Some(e))
    case Ok(extracted) => DispatchBatch(s.(reader := extracted.1), extracted.0)
  }

  /** The second half of `process_buffer`: the extracted packets are
      dispatched, then the waiters are served. */
  function DispatchBatch(s: Stream, ps: seq<Packet>): (o: Outcome)
    ensures o.error.Some? <==> HasDisconnect(ps)
    ensures o.error.None? ==> o.stream.queues.ready == [] || o.stream.awaiting == []
    ensures s.Consistent() ==> o.stream.Consistent()
    ensures NegotiatorFollows(s.negotiator, o.stream.negotiator)
    ensures |o.stream.delivered| >= |s.delivered| && o.stream.delivered[..|s.delivered|] == s.delivered
    ensures o.stream.haveHeader == s.haveHeader && o.stream.serverVersion == s.serverVersion
    ensures o.stream.reader == s.reader && o.stream.rejected == s.rejected
  {
    var start := Dispatched(s.queues, s.negotiator, None);
    var d := DispatchAll(start, ps);
    DispatchRaisesOnDisconnect(start, ps);
    DispatchConsistent(start, ps);
    var s1 := s.(queues := d.queues, negotiator := d.negotiator);
    if d.error.Some? then
      assert s1.delivered[..|s.delivered|] == s.delivered;
      Outcome(s1, d.error)
    else Outcome(ProcessWaiting(s1), None)
  }

  /** A batch without DISCONNECT: the negotiator ends as `Accepted` says, the
      data packets pass the gate as `GatedBatch` says, and of those that
      reach the ready queue the first go to the waiters. */
  lemma BatchGates(s: Stream, ps: seq<Packet>)
    requires !HasDisconnect(ps)
    ensures var o, g := DispatchBatch(s, ps), GatedBatch(s.negotiator, s.queues, ps);
            && o.error.None?
            && o.stream.negotiator == Accepted(s.negotiator, ps)
            && PacketsOf(o.stream.delivered[|s.delivered|..]) + o.stream.queues.ready == g.ready
            && WaitersOf(o.stream.delivered[|s.delivered|..]) + o.stream.awaiting == s.awaiting
            && o.stream.queues.held == g.held
            && o.stream.queues.releaseArmed == g.releaseArmed
  {
    var start := Dispatched(s.queues, s.negotiator, None);
    var d := DispatchAll(start, ps);
    DispatchGates(start, ps);
    var s1 := s.(queues := d.queues, negotiator := d.negotiator);
    assert DispatchBatch(s, ps) == Outcome(ProcessWaiting(s1), None);
  }

  /** `check_packet`: new bytes arrive. Before the identification has been
      seen the input is searched for it; a compatible one is recorded, the
      initial key exchange begins, and the bytes after it are processed as
      packets; an incompatible one raises. */
  function CheckPacket(s: Stream, data: seq<byte>): (o: Outcome)
    requires s.Valid()
    ensures s.Consistent() ==> o.stream.Consistent()
    ensures !s.haveHeader && o.stream.haveHeader ==> o.stream.negotiator.started && o.stream.negotiator.pending
    ensures s.negotiator.pending ==> o.stream.negotiator.pending
    ensures s.haveHeader ==> o == ProcessBuffer(s.(reader := s.reader.(input := s.reader.input + data)))
  {
    var s1 := s.(reader := s.reader.(input := s.reader.input + data));
    if s1.haveHeader then ProcessBuffer(s1) else ReadHeader(s1)
  }

  /** Looking for the identification in the bytes received so far. */
  function ReadHeader(s: Stream): (o: Outcome)
    requires s.Valid() && !s.haveHeader
    ensures Search(s.reader.input, 0).None? ==> o == Outcome(s, None)
    ensures var input := s.reader.input;
            Search(input, 0).Some? && !Compatible(input[..Search(input, 0).value.1 + 1]) ==>
              o == Outcome(s, Some(IncompatibleVersion(input[..Search(input, 0).value.1 + 1])))
    ensures var input := s.reader.input;
            o.stream.haveHeader <==> Search(input, 0).Some? && Compatible(input[..Search(input, 0).value.1 + 1])
    ensures var input := s.reader.input;
            o.stream.haveHeader ==>
              && o.stream.serverVersion == Some(SplitVersion(input[..Search(input, 0).value.1]))
              && o.stream.negotiator.started
              && o.stream.negotiator.pending
              && o.stream.negotiator.exchanges == Begin(s.negotiator).exchanges
    ensures var input := s.reader.input;
            Search(input, 0).Some? && Compatible(input[..Search(input, 0).value.1 + 1]) ==>
              o == AcceptHeader(s, Search(input, 0).value.1)
    ensures s.Consistent() ==> o.stream.Consistent()
    ensures s.negotiator.pending ==> o.stream.negotiator.pending
  {
    var input := s.reader.input;
    match Search(input, 0)
    case None => Outcome(s, None)
    case Some(m) =>
      var version := input[..m.1 + 1];
      if !Compatible(version) then Outcome(s, Some(IncompatibleVersion(version)))
      else AcceptHeader(s, m.1)
  }

  /** A compatible identification ending at `nl`: it is recorded, the
      negotiator is started (`@algorithms.start`), which begins the initial
      key exchange, and whatever follows is processed as packets, so those
      meet the gate with that exchange pending. */
  function AcceptHeader(s: Stream, nl: nat): (o: Outcome)
    requires s.Valid() && nl < |s.reader.input|
    ensures o.stream.haveHeader
    ensures o.stream.serverVersion == Some(SplitVersion(s.reader.input[..nl]))
    ensures o.stream.negotiator.started && o.stream.negotiator.pending
    ensures o.stream.negotiator.exchanges == Begin(s.negotiator).exchanges
    ensures o.stream.negotiator.allowed == s.negotiator.allowed
    ensures s.Consistent() ==> o.stream.Consistent()
    ensures var s2 := HeaderRecorded(s, nl);
            && (nl + 1 < |s.reader.input| ==> o == ProcessBuffer(s2))
            && (nl + 1 == |s.reader.input| ==> o == Outcome(s2, None))
  {
    var s2 := HeaderRecorded(s, nl);
    if |s2.reader.input| > 0 then ProcessBuffer(s2) else Outcome(s2, None)
  }

  /** The stream once the identification ending at `nl` is taken: the input
      keeps only what follows its newline, the split identification is
      recorded, and the negotiator is started. */
  function HeaderRecorded(s: Stream, nl: nat): (t: Stream)
    requires s.Valid() && nl < |s.reader.input|
    ensures t.Valid() && t.haveHeader
    ensures s.reader.input == s.reader.input[..nl + 1] + t.reader.input
    ensures t.reader.partial == s.reader.partial && t.reader.server == s.reader.server
    ensures t.serverVersion == Some(SplitVersion(s.reader.input[..nl]))
    ensures t.negotiator == Begin(s.negotiator).(started := true)
    ensures t == s.(reader := t.reader, serverVersion := t.serverVersion, haveHeader := true, negotiator := t.negotiator)
  {
    s.(reader := s.reader.(input := s.reader.input[nl + 1..]),
       serverVersion := Some(SplitVersion(s.reader.input[..nl])),
       haveHeader := true,
       negotiator := Begin(s.negotiator).(started := true))
  }

  /** Bytes that do not yet complete an identification line are kept: the
      identification may arrive split over any number of reads. */
  lemma HeaderAcrossReads(s: Stream, a: seq<byte>, b: seq<byte>)
    requires s.Valid() && !s.haveHeader
    requires Search(s.reader.input + a, 0).None?
    ensures CheckPacket(s, a).stream.Valid()
    ensures CheckPacket(CheckPacket(s, a).stream, b) == CheckPacket(s, a + b)
  {
    var s1 := s.(reader := s.reader.(input := s.reader.input + a));
    var both := s.(reader := s.reader.(input := s.reader.input + (a + b)));
    assert s1.(reader := s1.reader.(input := s1.reader.input + b)) == both by {
      assert s.reader.input + a + b == s.reader.input + (a + b);
    }
    CheckPacketBeforeHeader(s, a);
    CheckPacketBeforeHeader(s1, b);
    CheckPacketBeforeHeader(s, a + b);
  }

  /** Before the identification, `check_packet` only appends and looks for it. */
  lemma CheckPacketBeforeHeader(s: Stream, data: seq<byte>)
    requires s.Valid() && !s.haveHeader
    ensures CheckPacket(s, data) == ReadHeader(s.(reader := s.reader.(input := s.reader.input + data)))
  {
  }

  // ---------------------------------------------------------------------
  // Consumers and teardown

  datatype Mode = Block | Nonblock | Unknown

  /** What `get_packet` gives back: a packet, `nil`, or a suspension on a
      new waiter (the packet it is later resolved with is in `delivered`;
      a rejection, which `get_packet` rescues into `nil`, in `rejected`). */
  datatype Got = Got(packet: Packet) | Nothing | Suspended(waiter: WaiterId)

  datatype Fetch = Fetch(got: Got, stream: Stream)

  /** `get_packet(mode)`. An unknown mode raises `ArgumentError`, which the
      method's own `rescue` turns into `nil`. */
  function GetPacket(s: Stream, mode: Mode, next: WaiterId): (f: Fetch)
    requires mode.Block? ==> NewWaiter(s, next)
    ensures mode.Unknown? ==> f == Fetch(Nothing, s)
    ensures s.queues.ready != [] && !mode.Unknown? ==> f == Fetch(Got(s.queues.ready[0]), s.(queues := s.queues.(ready := s.queues.ready[1..])))
    ensures s.queues.ready == [] && mode.Nonblock? ==> f == Fetch(Nothing, s)
    ensures s.queues.ready == [] && mode.Block? ==> f == Fetch(Suspended(next), s.(awaiting := s.awaiting + [next]))
  {
    match mode
    case Unknown => Fetch(Nothing, s)
    case Nonblock =>
      if |s.queues.ready| == 0 then Fetch(Nothing, s) else Fetch(Got(s.queues.ready[0]), s.(queues := s.queues.(ready := s.queues.ready[1..])))
    case Block =>
      if |s.queues.ready| == 0 then Fetch(Suspended(next), s.(awaiting := s.awaiting + [next]))
      else Fetch(Got(s.queues.ready[0]), s.(queues := s.queues.(ready := s.queues.ready[1..])))
  }

  /** `get_packet` with the mode left to its default, `:block`: the head of
      the ready queue, or a suspension on a new waiter when it is empty. */
  function GetPacketDefault(s: Stream, next: WaiterId): (f: Fetch)
    requires NewWaiter(s, next)
    ensures s.queues.ready != [] ==> f == Fetch(Got(s.queues.ready[0]), s.(queues := s.queues.(ready := s.queues.ready[1..])))
    ensures s.queues.ready == [] ==> f == Fetch(Suspended(next), s.(awaiting := s.awaiting + [next]))
  {
    GetPacket(s, Block, next)
  }

  /** A waiter the stream has never seen: each `@reactor.defer` is a new
      object, neither waiting nor already resolved or rejected. */
  ghost predicate NewWaiter(s: Stream, w: WaiterId) {
    && w !in s.awaiting
    && (forall i :: 0 <= i < |s.delivered| ==> s.delivered[i].waiter != w)
    && (forall i :: 0 <= i < |s.rejected| ==> s.rejected[i].waiter != w)
  }

  /** A blocking read on an empty stream suspends on its waiter, and the next
      batch of packets resolves that waiter exactly once, with the first
      packet the batch makes ready; when the batch makes none ready it stays
      waiting. */
  lemma SuspendedWaiterGetsFirstPacket(s: Stream, w: WaiterId, ps: seq<Packet>)
    requires s.awaiting == [] && s.queues.ready == [] && !HasDisconnect(ps) && NewWaiter(s, w)
    ensures var f := GetPacket(s, Block, w);
            var o := DispatchBatch(f.stream, ps);
            var g := GatedBatch(s.negotiator, s.queues, ps).ready;
            && f.got == Suspended(w)
            && o.error.None?
            && (g == [] ==> o.stream.delivered == s.delivered && o.stream.awaiting == [w])
            && (g != [] ==>
                  && o.stream.delivered == s.delivered + [Delivery(w, g[0])]
                  && o.stream.awaiting == []
                  && o.stream.queues.ready == g[1..])
            && (forall i :: 0 <= i < |o.stream.delivered| && o.stream.delivered[i].waiter == w ==> i == |s.delivered|)
  {
    var t := GetPacket(s, Block, w).stream;
    assert t == s.(awaiting := [w]);
    OneWaiter(t, ps);
  }

  /** The batch after one waiter: it gets the first packet made ready, if
      any. */
  lemma OneWaiter(t: Stream, ps: seq<Packet>)
    requires |t.awaiting| == 1 && !HasDisconnect(ps)
    ensures var o := DispatchBatch(t, ps);
            var g := GatedBatch(t.negotiator, t.queues, ps).ready;
            && o.error.None?
            && (g == [] ==> o.stream.delivered == t.delivered && o.stream.awaiting == t.awaiting)
            && (g != [] ==>
                  && o.stream.delivered == t.delivered + [Delivery(t.awaiting[0], g[0])]
                  && o.stream.awaiting == []
                  && o.stream.queues.ready == g[1..])
  {
    var o := DispatchBatch(t, ps);
    var g := GatedBatch(t.negotiator, t.queues, ps).ready;
    BatchGates(t, ps);
    var added := o.stream.delivered[|t.delivered|..];
    assert PacketsOf(added) + o.stream.queues.ready == g;
    assert WaitersOf(added) + o.stream.awaiting == t.awaiting;
    assert o.stream.delivered == t.delivered + added;
    if |added| == 1 {
      assert WaitersOf(added)[0] == t.awaiting[0] && PacketsOf(added)[0] == g[0];
      assert added == [Delivery(t.awaiting[0], g[0])];
    }
  }

  function RejectAll(ws: seq<WaiterId>, reason: CloseReason): (rs: seq<Rejection>)
    ensures |rs| == |ws| && forall i :: 0 <= i < |ws| ==> rs[i] == Rejection(ws[i], reason)
  {
    seq(|ws|, i requires 0 <= i < |ws| => Rejection(ws[i], reason))
  }

  /** `on_close`: every waiter is rejected, in order, with the close error or
      "connection closed"; the waiter queue is emptied; a pending exchange is
      rejected too, which fires the release of held packets. */
  function OnClose(s: Stream, reason: CloseReason): (t: Stream)
    requires s.Consistent()
    ensures t.awaiting == []
    ensures t.rejected == s.rejected + RejectAll(s.awaiting, reason)
    ensures t.delivered == s.delivered
    ensures !t.negotiator.pending && t.queues.held == []
    ensures t == s.(awaiting := [], rejected := t.rejected,
                    queues := Queues(s.queues.ready + s.queues.held, [], false),
                    negotiator := s.negotiator.(pending := false))
  {
    var t := s.(awaiting := [], rejected := s.rejected + RejectAll(s.awaiting, reason));
    if t.negotiator.pending then
      var u := SettleRekey(t);
      assert u.delivered == t.delivered;
      u
    else
      t
  }

  /** What the stream does with new bytes. An exception raised through
      `reject_and_raise` closes the stream with that exception as the reason;
      a crash on a short read is raised without closing it. */
  function Receive(s: Stream, data: seq<byte>): (t: Stream)
    requires s.Valid() && s.Consistent()
    ensures var o := CheckPacket(s, data);
            o.error.Some? && o.error.value.Rejects() ==>
              && t.awaiting == [] && !t.negotiator.pending && t.queues.held == []
              && t.delivered == o.stream.delivered
              && t.rejected == o.stream.rejected + RejectAll(o.stream.awaiting, Failed(o.error.value))
    ensures var o := CheckPacket(s, data);
            o.error.None? || !o.error.value.Rejects() ==> t == o.stream
    ensures t.Consistent()
  {
    var o := CheckPacket(s, data);
    if o.error.Some? && o.error.value.Rejects() then OnClose(o.stream, Failed(o.error.value))
    else o.stream
  }

  // ---------------------------------------------------------------------
  // Rekey trigger

  /** `if_needs_rekey?`: when either direction needs a rekey, run `block`
      (the session's `rekey!`), then reset each direction that still needs one. */
  function IfNeedsRekey(s: Stream, block: Stream -> Stream): (t: Stream)
    ensures !s.client.needsRekey && !s.reader.server.needsRekey ==> t == s
    ensures s.client.needsRekey || s.reader.server.needsRekey ==>
              && t.client == block(s).client.Reset()
              && t.reader == block(s).reader.(server := block(s).reader.server.Reset())
              && t == block(s).(client := t.client, reader := t.reader)
  {
    if s.client.needsRekey || s.reader.server.needsRekey then
      var b := block(s);
      var c := if b.client.needsRekey then b.client.Reset() else b.client;
      var srv := if b.reader.server.needsRekey then b.reader.server.Reset() else b.reader.server;
      b.(client := c, reader := b.reader.(server := srv))
    else s
  }
}

=== FILE: values.dfy ===
/** The Ruby values that appear as options, hints and the `:paranoid`
    setting, with Ruby's notion of truth. */
module Values {

  datatype Value =
    | Nil
    | Bool(b: bool)
    | Int(i: int)
    | Sym(name: string)          // a Symbol such as `:debug`
    | Str(s: string)
    | List(items: seq<Value>)
    | Logger(level: int)         // a `Logger` and its level
    | Prompt                     // the default `Net::SSH::Prompt`
    | Obj(id: nat, respondsToVerify: bool)   // any other object

  /** Only `nil` and `false` are false in Ruby. */
  predicate Truthy(v: Value) {
    !(v.Nil? || v == Bool(false))
  }

  /** An options hash, keyed by symbol name. */
  type Options = map<string, Value>

  /** `options[key]`: `nil` when absent. */
  function Get(o: Options, key: string): Value {
    if key in o then o[key] else Nil
  }
}
